=== FILE: README.md ===
# ValueTracker and the misc helpers, modelled in Dafny

This project models the core of the open-physiology `utilities` library:

- `ValueTracker`, a mix-in that gives an object named **events** and
  observable **properties**;
- the string and collection helpers of `src/misc.js`.

**Registry.** A `ValueTracker` keeps its tables per object: events, public
property streams, settable property subjects, and current values. It
creates them lazily, on the first operation, and fills them with the
events and properties its decorators declared.

**Properties.** A property is either a subject seeded with its initial
value or a stream fed by a source. Every value pushed into it goes through
a fixed chain:

- `isValid` (a predicate, or membership in an array);
- `transform`;
- `distinctUntilChanged(isEqual)`;
- when cache invalidation is allowed, a filter that removes a private
  invalidation marker.

Each property keeps a synchronously readable current value, and exposes an
event stream of its changes.

**Lookups.** `p` looks up a property by name, or combines several of them:
active dependencies drive the output and passive ones are sampled.
`pObj` does the same, with the values keyed by name. `p` and `e` also
follow dotted paths (`carriage.x`, `carriage?.x`) through the object a
property currently holds.

The model is synchronous. A stream is represented by the values it delivers
to one subscriber that has been attached since the stream was created.

| file | module | what it holds |
|---|---|---|
| `values.dfy` | `Values` | JavaScript values, truthiness, `Option`/`Result`/`Outcome`, the errors (failed assertions and `TypeError`s) |
| `misc.dfy` | `Misc` | the helpers of `src/misc.js` |
| `pathname.dfy` | `PathName` | the path-name pattern `^(.+?)(\??\.)(.+)$` and the `@event` key rule `^(\w+)Event$` |
| `pipeline.dfy` | `Pipeline` | one property stream: validation, transform, distinct, invalidation, derived event |
| `combinator.dfy` | `Combinator` | `combineLatest(active).withLatestFrom(passive)`, as a class and as a function of the signal trace; `pObj`'s keyed combiner |
| `chain.dfy` | `Chain` | the `switchMap` of dotted paths, as a class and as a function of the signal trace |
| `tracker_state.dfy` | `TrackerState` | the tables as a value: definitions, lookups, pushes, the table invariant |
| `tracker.dfy` | `Tracker` | class `ValueTracker`, whose methods update the tables in place; the scenarios of the library's own tests |

Streams that cross objects are represented by the traces of values they
receive:

- the dependencies of a combination;
- the head and tail of a dotted path;
- the source of a derived property.

## Model

| member | source | states |
|---|---|---|
| `Misc.ArrayContainsValue` | src/misc.js:30 | true exactly when some element equals the value |
| `Misc.DropWhitespace` | src/misc.js:41 | the result is no longer than the input and does not start with whitespace |
| `Misc.DropWhitespaceShape` | src/misc.js:41 | what is dropped is a whitespace-only prefix of the input |
| `Misc.DropWhitespacePrefix` | src/misc.js:41 | a whitespace prefix in front of a visible character is exactly what is removed |
| `Misc.SimpleSpacedRun` | src/misc.js:32-34 | a non-empty run of whitespace becomes a single space |
| `Misc.SimpleSpacedSplit` | src/misc.js:32-34 | collapsing commutes with cutting the string at a non-whitespace character |
| `Misc.SimpleSpacedCollapsed` | src/misc.js:32-34 | the output has no run of whitespace: every whitespace character is a space followed by a non-whitespace character or the end |
| `Misc.SimpleSpacedStart` | src/misc.js:32-34 | the output is empty iff the input is; it starts with the input's first character, or with a space when that character is whitespace |
| `Misc.SimpleSpacedVisible` | src/misc.js:32-34 | the non-whitespace characters are kept, in order |
| `Misc.SimpleSpacedFixed` | src/misc.js:32-34 | a string without whitespace runs is left unchanged |
| `Misc.SimpleSpacedIdempotent` | src/misc.js:32-34 | collapsing twice is the same as collapsing once |
| `Misc.SimpleSpacedVisibleHead` | src/misc.js:32-34 | a leading non-whitespace character is kept as it is |
| `Misc.SimpleSpacedSpaceHead` | src/misc.js:32-34 | a single space before a non-whitespace character is kept as it is |
| `Misc.DropTrailingWhitespace` | src/misc.js:41 | the result is no longer than the input and does not end with whitespace |
| `Misc.DropTrailingShape` | src/misc.js:41 | what is dropped is a whitespace-only suffix |
| `Misc.TrimShape` | src/misc.js:41 | `trim` leaves the text between leading and trailing whitespace, at its offset, with no whitespace at either end |
| `Misc.MessageStartsWithFirstLiteral` | src/misc.js:37 | the first literal piece stands verbatim, not collapsed, at the front of the assembled message |
| `Misc.HumanMsg` | src/misc.js:36-42 | the loop computes the trim of the first literal followed by each value and its collapsed literal; the result has no whitespace at either end |
| `Misc.MessageExample` | src/ValueTracker.js:257 | the message for an unknown property `x` comes out as `No property 'x' exists.` |
| `Misc.ExampleAssembled` | src/misc.js:37-40 | the untrimmed assembly of that message |
| `Misc.ExampleFrontTrimmed` | src/misc.js:41 | its leading whitespace removed |
| `Misc.ExampleBackTrimmed` | src/misc.js:41 | its trailing whitespace removed |
| `Misc.ExampleLiteralCollapsed` | src/misc.js:39 | the literal after the value collapsed |
| `Misc.ExampleWordCollapsed` | src/misc.js:39 | the final line break of that literal becomes a space |
| `Misc.MapOptionalArray` | src/misc.js:44-49 | undefined gives `[]`; an array gives an array of the same length mapped element-wise; any other value gives `fn(val)` unwrapped |
| `Misc.WrapInArray` | src/misc.js:51-55 | undefined gives `[]`; an array or set gives its elements in order; any other value gives a one-element array |
| `Misc.WrapMapCommute` | src/misc.js:44-55 | wrapping the result of `mapOptionalArray` equals mapping over the wrapped value |
| `Misc.WithDefault` | src/misc.js:64-68 | the key reads as the old value when that is defined, else as the new one; no other key changes |
| `Misc.SetDefault` | src/misc.js:64-68 | the object is updated in place to `WithDefault` of its old properties |
| `Misc.SetDefaultTwice` | src/misc.js:64-68 | a second `setDefault` on the same key has no effect |
| `Misc.Bound` | src/misc.js:59-60 | the result is a number; a numeric bound is kept |
| `Misc.Normalized` | src/misc.js:57-62 | a `Number`-class value with a numeric `value` gives `min == max == value`, and with a non-numeric `value` gives -Infinity and +Infinity; otherwise a non-numeric `min` becomes -Infinity and a non-numeric `max` becomes +Infinity; both bounds are numbers |
| `Misc.NormalizeToRange` | src/misc.js:57-62 | returns `Normalized` of the input; mutates a non-`Number` object's bounds the same way and leaves a `Number` object alone |
| `Misc.NormalizedIdempotent` | src/misc.js:57-62 | normalizing a normalized range, or the mutated object, gives the same range |
| `Misc.MatchSelects` | src/misc.js:70-74 | a present key selects its entry and a missing key selects `default` (undefined without one); with `autoInvoke` a function entry, `default` included, is called, without it the function is returned |
| `Misc.MatchNumberAsString` | src/misc.js:71 | keys compare as strings: a number and its decimal text select the same entry |
| `Misc.MatchExamples` | test/misc.spec.js:45-77 | the results of the object-map tests, with and without `autoInvoke` |
| `Misc.RepeatedLength` | src/misc.js:126-128 | the repetition has `count` times as many characters as `str` |
| `Misc.RepeatedAdd` | src/misc.js:126-128 | repeating `a + b` times is repeating `a` times, then `b` times |
| `Misc.RepeatPiece` | src/misc.js:125 | a string argument is the piece itself, even when it is empty (corrected) |
| `Misc.RepeatPieceAsWritten` | src/misc.js:125 | as written, the piece agrees with the intended one for a missing or truthy `str`, while `''`, `0` and `null` take the receiver |
| `Misc.RepeatEmptyStringAsWritten` | src/misc.js:125 | as written, `repeat(2, '')` without a receiver repeats `"undefined"` |
| `Misc.Repeat` | src/misc.js:124-129 | as written: `count <= 0` gives `""`; otherwise the loop returns the piece (`str`, or `this` when `str` is falsy) repeated `count` times, or the error of converting a symbol |
| `Misc.RepeatString` | src/misc.js:124-129 | for a string the piece is that string, the result has `count` times as many characters as `s`, and it unfolds one piece at a time |
| `PathName.SplitSound` | src/ValueTracker.js:195-197 | a match has a non-empty head and tail, no line terminator, no `.` in the head before the separator, and joins back to the name |
| `PathName.SplitNone` | src/ValueTracker.js:195 | a name does not match iff it has a line terminator or no `.` strictly inside it after the first character |
| `PathName.JoinSplit` | src/ValueTracker.js:195-197 | splitting a joined well-formed path gives back its head, separator and tail |
| `PathName.HeadIsPlain` | src/ValueTracker.js:240-244 | the head of a split never splits again, so it is looked up as a plain name |
| `PathName.SplitExamples` | src/ValueTracker.js:240-243 | `carriage.x` and `carriage?.x` split strictly and loosely at the first separator; `x`, `.x` and `x.` do not split |
| `PathName.SplitFromShape` | src/ValueTracker.js:195 | where a match from a head length on cuts the name, and what it checked |
| `PathName.SplitFromLeftmost` | src/ValueTracker.js:195 | the lazy head stops at the first `.` |
| `PathName.SplitFromNoDot` | src/ValueTracker.js:195 | the lazy head contains no `.` at or after the head length the search started from |
| `PathName.SplitFromNoQuestion` | src/ValueTracker.js:195 | a `?` just before a plain `.` belongs to the separator, so a plain-dot head never ends in `?` |
| `PathName.SplitFromChecked` | src/ValueTracker.js:195 | a match searched from head length `i` has no line terminator from position `i - 1` on |
| `PathName.EventKeyName` | src/ValueTracker.js:324-326 | succeeds iff the key is a word followed by `Event`; the key is then the name followed by `Event`; otherwise it fails with the decorator's assertion |
| `PathName.EventKeyRoundTrip` | src/ValueTracker.js:324-326 | the event name of `word + "Event"` is `word` |
| `Pipeline.StepAsWritten` | src/ValueTracker.js:150-158 | as written, for the `index`-th value the filter sees: at most one delivery, only of a value `isValid` accepts at that index, and a delivered value becomes the last value |
| `Pipeline.AcceptsAtBounds` | src/ValueTracker.js:125 | the `includes` bound to an array searches from the filter's count: from 0 it is membership, later it finds only members, and past the array's length nothing passes |
| `Pipeline.Step` | src/ValueTracker.js:150-158 | corrected: at most one delivery; the marker is never delivered and clears the last value; a rejected value changes nothing; an accepted value is delivered as `transform(v)` exactly when that is not `isEqual` to the last value and is not the marker; without invalidation an empty step keeps the last value |
| `Pipeline.StepAgreesOnValues` | src/ValueTracker.js:150-152 | any value but the marker goes through the corrected step as through the written one at index 0, and at every index for a predicate `isValid` |
| `Pipeline.Refined` | src/ValueTracker.js:151-155 | a value that passed `isValid` is delivered as `transform(v)`, and becomes the last value, exactly when that is not `isEqual` to the last value and is not the marker; otherwise nothing is delivered |
| `Pipeline.RunBound` | src/ValueTracker.js:150-152 | each push delivers at most one value |
| `Pipeline.RunAppend` | src/ValueTracker.js:150-158 | pushing two batches in turn is pushing them together |
| `Pipeline.RunSound` | src/ValueTracker.js:150-151 | every delivered value is `transform(v)` of a pushed `v` that `isValid` accepts |
| `Pipeline.RunNoMarker` | src/ValueTracker.js:153-155 | with invalidation allowed, the marker never reaches a subscriber |
| `Pipeline.RunDistinct` | src/ValueTracker.js:152 | no two consecutive deliveries are `isEqual`, and the last value is the last delivery |
| `Pipeline.PushTwice` | src/ValueTracker.js:152 | pushing the same value twice delivers nothing the second time |
| `Pipeline.InvalidateRedelivers` | src/ValueTracker.js:153-158 | invalidate, then push the value again: it is delivered once more, and a further push of it is suppressed |
| `Pipeline.InvalidateAsWrittenRedelivers` | src/ValueTracker.js:150-158 | as written, at any filter count, invalidation works when `isValid` is a predicate accepting the marker, `transform` keeps it and `isEqual` relates it to no other value |
| `Pipeline.StepAgreesAsWritten` | src/ValueTracker.js:150-158 | under those conditions one corrected and one written step deliver the same and keep the same last value, up to a cleared marker |
| `Pipeline.RunAgreesAsWritten` | src/ValueTracker.js:150-158 | under those conditions the corrected pipeline delivers exactly what the written one delivers, for every sequence of pushes |
| `Pipeline.DefaultsInvalidate` | src/ValueTracker.js:103-105 | the default `isValid`, `transform` and `isEqual` meet those conditions |
| `Pipeline.InvalidateIgnoredAsWritten` | src/ValueTracker.js:150-157 | as written, with an array `isValid` the marker changes nothing at any filter count, so a repeated value stays suppressed |
| `Pipeline.InvalidateWithArrayValidator` | src/ValueTracker.js:153-158 | corrected: with the same array `isValid`, it is delivered again |
| `Pipeline.ArrayValidatorExhausted` | src/ValueTracker.js:125 | as written, `{isValid: [0, 1], initial: 0}` with 1 and then 0 pushed delivers 0 and 1 only, and keeps 1 |
| `Pipeline.ArrayValidatorMembership` | src/ValueTracker.js:125 | corrected: with membership the same pushes deliver 0, 1 and 0 |
| `Pipeline.Changes` | src/ValueTracker.js:173-175 | the changes after joining are no more than the pushes |
| `Pipeline.SkipFirstAgrees` | src/ValueTracker.js:173-175 | when the current value is delivered on joining, `skip(1)` drops exactly that replay |
| `Pipeline.SkipFirstLosesChange` | src/ValueTracker.js:173-175 | as written, a `flag` without an initial value loses its first change |
| `Combinator.Latest` | src/ValueTracker.js:235-236 | one latest value per dependency |
| `Combinator.LatestPresent` | src/ValueTracker.js:235-236 | a dependency has a latest value iff it has delivered one |
| `Combinator.OutputsBarrier` | src/ValueTracker.js:235-237 | nothing is emitted before every active and every passive dependency has delivered |
| `Combinator.OutputsCount` | src/ValueTracker.js:235-237 | at most one output per active signal; passive signals never emit |
| `Combinator.Combination.constructor` | src/ValueTracker.js:235-237 | a new stream that has seen and emitted nothing |
| `Combinator.Combination.OnActive` | src/ValueTracker.js:235-237 | records the value; emits `combiner(activeLatest ++ passiveLatest)` exactly when all values are present; keeps the emitted log equal to `Outputs` |
| `Combinator.Combination.OnPassive` | src/ValueTracker.js:236-237 | records the value and emits nothing |
| `Combinator.Combination.Feed` | src/ValueTracker.js:235-237 | feeding a trace extends the trace and the emitted log by what it emits |
| `Combinator.VectorExample` | test/ValueTracker.spec.js:36-62 | the `[x, y]` / `[z]` combination emits `[0,1,2]`, `[0,5,2]`, `[0,7,9]` and nothing for `z = 9` |
| `Combinator.Keyed` | src/ValueTracker.js:292 | the object's keys are exactly the names, and the last name holds the last value |
| `Combinator.KeyedLastWins` | src/ValueTracker.js:292 | each name holds the value of its last occurrence |
| `Combinator.PObjFields` | src/ValueTracker.js:289-293 | with distinct names, `pObj` hands the transformer an object in which each name holds its value |
| `Chain.Link.constructor` | src/ValueTracker.js:244 | a new chain follows nothing and has emitted nothing |
| `Chain.Link.OnHead` | src/ValueTracker.js:244-255 | a falsy head emits `null` (loose) or nothing (strict) and unlinks; a tracker head switches to it and replays what its tail gives at once, or fails with its tail's error; a truthy non-tracker fails the chain; a failed chain stays silent |
| `Chain.Link.OnTail` | src/ValueTracker.js:244-254 | a tail value is forwarded only from the currently linked tracker of a live chain |
| `Chain.FailedIsFinal` | src/ValueTracker.js:249-253 | once failed, the chain emits nothing more |
| `Chain.ChainSound` | src/ValueTracker.js:244-255 | every emitted value is `null` from the loose form or a value of a linked tracker's tail |
| `Chain.StrictCarriageExample` | test/ValueTracker.spec.js:64-108 | `passenger.p('carriage.x')` emits `0, 22, 0, 42, 999, 999` |
| `Chain.LooseCarriageExample` | test/ValueTracker.spec.js:110-154 | `passenger.p('carriage?.x')` emits `null, 0, 22, 0, 42, 999, null, 999` |
| `Chain.PhoneRingExample` | test/ValueTracker.spec.js:210-258 | `person.e('phone.ring')` emits `22, 42` |
| `Chain.NotATrackerFails` | src/ValueTracker.js:249-253 | a head holding a number fails the chain with the assertion |
| `TrackerState.EmptyTablesValid` | src/ValueTracker.js:30-33 | freshly created tables satisfy the table invariant |
| `TrackerState.ResolveProperty` | src/ValueTracker.js:238-259 | the empty name gives `undefined` without an assertion; another plain name resolves to its own stream iff it is a property, else fails with `No property`; a dotted path resolves iff its head is a property |
| `TrackerState.ResolveAll` | src/ValueTracker.js:235-236 | succeeds iff every dependency resolves; on failure gives the error of one that fails |
| `TrackerState.ResolveDerived` | src/ValueTracker.js:234-237 | a combination of the resolved active and passive dependencies, or the first failure |
| `TrackerState.ResolveObject` | src/ValueTracker.js:289-293 | `pObj` is `p` with the keyed combiner |
| `TrackerState.ResolveEvent` | src/ValueTracker.js:191-214 | a plain name gives its event or a never-emitting stream; a dotted path needs its head to be a property |
| `TrackerState.AddEvent` | src/ValueTracker.js:63-77 | succeeds iff the name is neither an event nor a property, failing with the first assertion otherwise |
| `TrackerState.AdmitPass` | src/ValueTracker.js:111-137 | a property is admitted iff its name is free and, with a source: readonly, no truthy initial, no cache invalidation, source found |
| `TrackerState.FalsyInitialAdmitted` | src/ValueTracker.js:119-120 | a source with initial `0` is admitted; with initial `1` it is refused |
| `TrackerState.Created` | src/ValueTracker.js:139-147 | a property without a source holds its initial value and replays it through the refinements at once, delivering `transform(initial)` when `isValid` accepts it; a sourced property waits for its source |
| `TrackerState.DeclaredReadsInitial` | src/ValueTracker.js:140-169 | a property without a source holds its initial value as soon as it is declared, and a synchronously readable one reads `transform(initial)` when `isValid` accepts it |
| `TrackerState.AddProperty` | src/ValueTracker.js:97-180 | succeeds iff admitted, with the failing assertion's error; adds the created property, the derived event exactly when asked for, and, for a synchronously readable property, its replayed value as the current value; other names keep their entries |
| `TrackerState.AddEventValid` | src/ValueTracker.js:72 | defining an event keeps the table invariant |
| `TrackerState.AddPropertyValid` | src/ValueTracker.js:162-176 | defining a property keeps the table invariant |
| `TrackerState.NamesTakenOnce` | src/ValueTracker.js:111-114 | after a property is defined its name is refused for properties and events; after an event is defined, for properties |
| `TrackerState.WriteTarget` | src/ValueTracker.js:162-163 | a push reaches a property that exists and has no source |
| `TrackerState.WriteTargetFound` | src/ValueTracker.js:162-163 | through `pSubject` a push reaches any property without a source; through `p` it reaches a plain property, or the head of a dotted path, that has no source and is not read-only; `p('')` cannot be pushed into |
| `TrackerState.InvalidateAccessPass` | src/ValueTracker.js:153-158 | invalidation is possible only on a property that allows it |
| `TrackerState.Push` | src/ValueTracker.js:150-169 | corrected: it delivers what the corrected `Step` delivers and keeps that step's last value; a property without a source holds the pushed value; only this property's entry and current value change |
| `TrackerState.PushValid` | src/ValueTracker.js:166-169 | a push keeps the table invariant, and a delivered value is the new current value |
| `TrackerState.PushSameTwice` | test/ValueTracker.spec.js:164-170 | a second push of the same value delivers nothing and leaves the current value |
| `TrackerState.InvalidateThenPush` | test/ValueTracker.spec.js:172-176 | corrected: invalidating and pushing a value again delivers it |
| `TrackerState.Emit` | src/ValueTracker.js:191-213 | `e(name).next(v)` on a plain name works only for a standalone event, and delivers `v` iff its `filterBy` accepts it; on a dotted path it pushes `v` into the head property when that is settable |
| `Tracker.DeclareEventsValid` | src/ValueTracker.js:36-38 | declaring events keeps the invariant and defines every name |
| `Tracker.DeclareEventsGrow` | src/ValueTracker.js:36-38 | declaring events leaves the properties alone |
| `Tracker.DeclarePropertiesValid` | src/ValueTracker.js:39-41 | declaring properties keeps the invariant and defines every name |
| `Tracker.DeclarePropertiesGrow` | src/ValueTracker.js:39-41 | earlier properties survive |
| `Tracker.DeclaredValid` | src/ValueTracker.js:28-42 | initialization yields valid tables holding every declared name |
| `Tracker.ReachedDeclared` | src/ValueTracker.js:36-41 | when every definition succeeds, the tables reached are the declared ones |
| `Tracker.ValueTracker.constructor` | src/ValueTracker.js:44-47 | not yet initialized, with a filter that accepts everything |
| `Tracker.ValueTracker.Initialize` | src/ValueTracker.js:28-42 | runs once; the loops build exactly the declared tables, or stop at the first failing definition and keep the tables as far as they got |
| `Tracker.ValueTracker.SetValueTrackerOptions` | src/ValueTracker.js:49-53 | sets `filterBy`, then initializes: the declared tables, or after a failing definition the tables as far as they got |
| `Tracker.ValueTracker.DefineEvent` | src/ValueTracker.js:66-76 | the tables become `AddEvent` of the old ones, or stay on failure |
| `Tracker.ValueTracker.NewEvent` | src/ValueTracker.js:63-77 | initializes first, then defines the event; when that first initialization fails, the error is returned and the tables are left as far as it got |
| `Tracker.ValueTracker.DefineProperty` | src/ValueTracker.js:110-179 | the tables become `AddProperty` of the old ones, or stay on failure |
| `Tracker.ValueTracker.NewProperty` | src/ValueTracker.js:97-180 | initializes first, then defines the property; when that first initialization fails, the error is returned and the tables are left as far as it got |
| `Tracker.ValueTracker.P` | src/ValueTracker.js:232-259 | initializes first, then resolves the name; when that first initialization fails, the error is returned and the tables are left as far as it got |
| `Tracker.ValueTracker.PDerived` | src/ValueTracker.js:232-237 | initializes first, then resolves the combination; when that first initialization fails, the error is returned and the tables are left as far as it got |
| `Tracker.ValueTracker.PObj` | src/ValueTracker.js:289-293 | initializes first, then resolves the keyed combination; when that first initialization fails, the error is returned and the tables are left as far as it got |
| `Tracker.ValueTracker.E` | src/ValueTracker.js:191-214 | initializes first, then resolves the event; when that first initialization fails, the error is returned and the tables are left as far as it got |
| `Tracker.ValueTracker.HasProperty` | src/ValueTracker.js:217-219 | false before initialization; on plain names it agrees with `p` |
| `Tracker.ValueTracker.Get` | src/ValueTracker.js:318 | fails before initialization; afterwards reads the last delivered value, or undefined for an unknown key |
| `Tracker.ValueTracker.Next` | src/ValueTracker.js:162-163 | pushes into the property `WriteTarget` names and returns what it delivers, otherwise fails and changes nothing |
| `Tracker.ValueTracker.Set` | src/ValueTracker.js:319 | the setter initializes, then pushes through `p(key)` into the property it reaches; when that first initialization fails, the error is returned and the tables are left as far as it got |
| `Tracker.ValueTracker.InvalidateCache` | src/ValueTracker.js:156-158 | corrected: puts the marker into the property's stream when `InvalidateAccess` allows it |
| `Tracker.ValueTracker.SourceDelivers` | src/ValueTracker.js:129-137 | a source delivery goes through the property's refinements |
| `Tracker.ValueTracker.Deliver` | src/ValueTracker.js:150-169 | a value goes through the refinements, and the current value follows the delivery |
| `Tracker.VectorDeclared` | test/ValueTracker.spec.js:19-31 | a new `Vector` defines `x`, `y` and `z`, reading 0, 1 and 2 |
| `Tracker.VectorXPush` | src/ValueTracker.js:150-158 | `p('x')` reaches `x` itself; a push into `x` delivers the value unless it repeats the last one, and the marker clears the last value |
| `Tracker.VectorYSet` | test/ValueTracker.spec.js:44-46 | setting `y` from 1 to 5 delivers 5, and `y` then reads 5 |
| `Tracker.CarriagePathWrites` | src/ValueTracker.js:238-255 | a push into `p('carriage.x')`, `p('carriage?.x')` or `e('carriage.x')` reaches the settable `carriage` property itself |
| `Tracker.InvalidationExample` | test/ValueTracker.spec.js:156-182 | the object logs `0, 1, 1`: a repeated push is dropped until `invalidateCache()` |
| `Tracker.SetterExample` | test/ValueTracker.spec.js:44-46 | `obj.y = 5` makes `obj.y` read 5; reading before any operation fails |

## Left out

- RxJS itself is not modelled: subscription management, `takeUntil` teardown (src/ValueTracker.js:45, 50, 73), completion and errors inside streams. A stream is represented by the values it delivers to one subscriber attached since its creation.
- The late-subscriber replay of a `BehaviorSubject` is not modelled. Every stream keeps a single last value for `distinctUntilChanged`, as seen by that one subscriber.
- `TrackerState.Created`: a property whose source is a property of the same object subscribes through `this.p(source)` when it is defined, so the source's current value is replayed at once and later pushes into the source reach it. The model gives the property `Undefined` and no last value until a source delivery is fed in with `SourceDelivers`, and a push into the source property does not propagate.
- `Tracker.ValueTracker.Get`: with `allowSynchronousAccess: false` the decorator installs no getter, so `obj.key` is `undefined` even before initialization. The model fails with `NotInitialized` before initialization and reads undefined afterwards.
- Propagation between live objects is not modelled. Dependency values, chain heads and tails, and source deliveries are inputs: `Combination`, `Link` and `SourceDelivers`.
- The `Math.sqrt` derived-property test is not modelled, because it is floating point.
- `instanceof Observable` sources are not modelled. A source is a property name, a dotted path or a dependency list.
- The `this` binding of `isValid`, `transform`, `isEqual` and `initial` producers is not modelled. Producers are functions of the value.
- Falsy `isValid` and `transform` options, which skip their step, are not modelled.
- `Tracker.ValueTracker.Next`: a push into the public stream of a property with a source reaches the upstream subject in RxJS. It is modelled as a failure (`NotSettable`), for the property's plain name, for a dotted path through it, and for `pSubject(name)`, whose `next` also reaches the upstream subject.
- `TrackerState.Emit`: the derived event of a property with a source is `skip(1)` of the source's chain, so a push into it also reaches the upstream subject. It is modelled as a failure (`NotSettable`).
- `TrackerState.Push`: the pushed value goes through the corrected `Pipeline.Step`. The invalidation marker is taken out first, and an array `isValid` is plain membership. `Pipeline.RunAgreesAsWritten` shows the written pipeline delivers the same when `isValid` is a predicate accepting the marker, `transform` keeps it and `isEqual` relates it to no other value, as the defaults do. With an array `isValid`, or a `transform` that changes the marker, the source differs; see "Findings".
- `Tracker.ValueTracker.InvalidateCache`: for the same reason, the marker clears the last value even where the written `isValid` would reject it or `transform` would change it. There the source delivers nothing new, or delivers the transformed marker.
- `TrackerState.InvalidateThenPush`: states redelivery for the corrected step. As written it also needs the conditions of `Pipeline.InvalidateAsWrittenRedelivers`, which `Pipeline.DefaultsInvalidate` discharges for the defaults.
- JavaScript numbers are modelled as integers plus the two infinities. `NaN`, `-0` and fractions are not modelled. As a result, `NaN !== NaN` re-delivering under the default `isEqual`, lodash `isNumber(NaN)` keeping a NaN bound in `normalizeToRange`, and `[NaN].includes(NaN)` are not captured.
- `Tracker.ValueTracker.Set`: the setter exists in the source only when `readonly` is falsy in the decorator options. The model always has it and fails on a read-only property.
- Emission on derived events (`e(name)` for a property) is not modelled separately. `Pipeline.Changes` states what it carries; the tables do not record its subscribers.
- Value equality approximates `===` structurally: arrays and objects compare by content, not by identity.
- Prototype keys and `WeakSet` are not modelled.
- The index that `filter` and `map` pass as a second argument is modelled only for an array `isValid`. Predicates and transforms are functions of the value alone.
- The decorator plumbing (src/ValueTracker.js:314-331) is not modelled beyond the `...Event` key rule, the getter and the setter. `flag` appears only in `Pipeline.SkipFirstLosesChange`.
- The `@args` argument reshuffling of `p` is not modelled. `p`'s name and dependency forms are two methods, `P` and `PDerived`.
- `humanMsg`'s coercion of arbitrary values to strings is not modelled; the values are strings.
- `Misc.NormalizeToRange` takes an object. `val.min` on a primitive is not modelled.
- The array-map form of `match` (test/misc.spec.js:79-117) is not modelled: the shown `match` does not implement it.
- These helpers are not modelled, since they are DOM helpers or rely on reflection: `withMod`, `withoutMod`, `which`, `stopPropagation`, `definePropertyByValue`, `definePropertiesByValue`, `callOrReturn`, `args`.
- src/events.js, src/bound-hybrid-functions.js, webpack.config.js and test/index.spec.js are not part of this model.

## Findings

| source | as written | input that shows it | evidently intended | confidence | as-written member | corrected member |
|---|---|---|---|---|---|---|
| src/misc.js:125 | `if (!str) { str = this }` also replaces an empty string | `repeat(2, '')` called plainly repeats `this` (undefined) and gives `"undefinedundefined"` | only a missing `str` falls back to `this`, so the result is `""` | not executed | `Misc.RepeatEmptyStringAsWritten` | `Misc.RepeatString` |
| src/ValueTracker.js:150-157 | `invalidateCache` pushes the marker into the subject ahead of `filter(isValid)`, so `isValid` must accept it | a property with `isValid: [0, 1]` and cache invalidation: `invalidateCache()` leaves the last value as it was, so pushing the same value again delivers nothing | the marker clears the distinct cache whatever `isValid` is | not executed | `Pipeline.InvalidateIgnoredAsWritten` | `Pipeline.InvalidateWithArrayValidator` |
| src/ValueTracker.js:173-175 | the derived event `skip(1)`s the first delivery, assuming it is the replay of the current value | a `flag` without an initial value (undefined fails `isBoolean`): the first `true` pushed is dropped from its event | only the replay is skipped, so every change reaches the event | not executed | `Pipeline.SkipFirstLosesChange` | `Pipeline.SkipFirstAgrees` |
| src/ValueTracker.js:125 | `isValid::includes` is called by `filter` with the value and the filter's running count, which lodash `includes` takes as `fromIndex` | `{isValid: [0, 1], initial: 0}`: after the replayed 0, pushing 1 and then 0 drops the 0, because `includes([0, 1], 0, 2)` is false, so `x` stays 1 | inclusion in the array, whatever came before | not executed | `Pipeline.ArrayValidatorExhausted` | `Pipeline.ArrayValidatorMembership` |

=== FILE: chain.dfy ===
/**
  The stream `p('head.tail')` (or `e('head.tail')`) builds for a dotted
  path: a `switchMap` over the values of the `head` property. Each value that
  is a value tracker replaces the subscription with one to that object's
  `tail` stream; a falsy value ends it (and, for the loose `?.` separator,
  emits `null`); any other value makes the chain fail.
  The head's values and the linked objects' streams are inputs here: a trace
  of what the head delivers, each with what subscribing to the new object's
  tail delivers at once, and of what the linked objects deliver later.
 */
module Chain {
  import opened Values

  /** What subscribing to `obj.p(tail)` (or `obj.e(tail)`) gives at once:
      the values it replays (a property's current value; nothing for an
      event), or the error raised when `obj` has no such tail. */
  datatype TailStream = Replays(values: seq<Value>) | Fails(error: Error)

  /** A value of the head property, or a value from the tail stream of the
      value tracker `id`. */
  datatype ChainSignal = Head(v: Value, tail: TailStream) | Tail(id: nat, v: Value)

  /** The object the chain currently follows, whether the chain has failed,
      and what it has emitted. */
  datatype ChainState = ChainState(link: Option<nat>, failed: Option<Error>, out: seq<Value>)

  /** The effect of one signal on the chain through property `head`. */
  function Respond(loose: bool, head: string, st: ChainState, s: ChainSignal): ChainState {
    if st.failed.Some? then st
    else match s
      case Head(v, tail) =>
        if !Truthy(v) then ChainState(None, None, st.out + (if loose then [Null] else []))
        else if !v.Ref? then ChainState(None, Some(ChainTarget(head)), st.out)
        else (match tail
          case Replays(vs) => ChainState(Some(v.id), None, st.out + vs)
          case Fails(e) => ChainState(None, Some(e), st.out))
      case Tail(id, v) =>
        if st.link == Some(id) then st.(out := st.out + [v]) else st
  }

  /** The chain after a trace. */
  function ChainRun(loose: bool, head: string, trace: seq<ChainSignal>): ChainState
    decreases |trace|
  {
    if trace == [] then ChainState(None, None, [])
    else Respond(loose, head, ChainRun(loose, head, trace[..|trace| - 1]), trace[|trace| - 1])
  }

  class Link {
    const loose: bool
    const head: string
    var link: Option<nat>
    var failed: Option<Error>
    ghost var trace: seq<ChainSignal>
    ghost var emitted: seq<Value>

    ghost predicate Valid()
      reads this
    {
      ChainRun(loose, head, trace) == ChainState(link, failed, emitted)
    }

    constructor(loose: bool, head: string)
      ensures Valid() && trace == [] && this.loose == loose && this.head == head
    {
      this.loose := loose;
      this.head := head;
      link := None;
      failed := None;
      trace := [];
      emitted := [];
    }

    /** The head property delivers `v`; `tail` is what subscribing to the
        tail of `v` gives, when `v` is a value tracker. */
    method OnHead(v: Value, tail: TailStream) returns (out: seq<Value>)
      requires Valid()
      modifies this
      ensures Valid()
      ensures trace == old(trace) + [Head(v, tail)] && emitted == old(emitted) + out
      ensures old(failed).Some? ==> out == [] && failed == old(failed) && link == old(link)
      ensures old(failed).None? && !Truthy(v) ==>
        link == None && failed == None && out == (if loose then [Null] else [])
      ensures old(failed).None? && v.Ref? && tail.Replays? ==>
        link == Some(v.id) && failed == None && out == tail.values
      ensures old(failed).None? && v.Ref? && tail.Fails? ==>
        link == None && failed == Some(tail.error) && out == []
      ensures old(failed).None? && Truthy(v) && !v.Ref? ==>
        link == None && failed == Some(ChainTarget(head)) && out == []
    {
      trace := trace + [Head(v, tail)];
      assert trace[..|trace| - 1] == old(trace);
      out := [];
      if failed.None? {
        if !Truthy(v) {
          link := None;
          out := if loose then [Null] else [];
        } else if !v.Ref? {
          link := None;
          failed := Some(ChainTarget(head));
        } else if tail.Replays? {
          link := Some(v.id);
          out := tail.values;
        } else {
          link := None;
          failed := Some(tail.error);
        }
      }
      emitted := emitted + out;
    }

    /** The value tracker `id` delivers `v` on its tail stream: forwarded
        exactly when the chain follows that object and has not failed. */
    method OnTail(id: nat, v: Value) returns (out: seq<Value>)
      requires Valid()
      modifies this
      ensures Valid()
      ensures trace == old(trace) + [Tail(id, v)] && emitted == old(emitted) + out
      ensures link == old(link) && failed == old(failed)
      ensures out == if failed.None? && link == Some(id) then [v] else []
    {
      trace := trace + [Tail(id, v)];
      assert trace[..|trace| - 1] == old(trace);
      if failed.None? && link == Some(id) {
        out := [v];
      } else {
        out := [];
      }
      emitted := emitted + out;
    }
  }

  /** Once the chain has failed it emits nothing more. */
  lemma {:induction false} FailedIsFinal(loose: bool, head: string, trace: seq<ChainSignal>, more: seq<ChainSignal>)
    requires ChainRun(loose, head, trace).failed.Some?
    ensures ChainRun(loose, head, trace + more) == ChainRun(loose, head, trace)
    decreases |more|
  {
    if more != [] {
      var init := more[..|more| - 1];
      assert (trace + more)[..|trace + more| - 1] == trace + init;
      assert (trace + more)[|trace + more| - 1] == more[|more| - 1];
      FailedIsFinal(loose, head, trace, init);
    } else {
      assert trace + more == trace;
    }
  }

  /** A value that can reach the output of a chain: a value from a linked
      object, a value replayed on linking it, or (for `?.`) `null`. */
  predicate FromTrace(loose: bool, trace: seq<ChainSignal>, o: Value) {
    || (loose && o == Null)
    || (exists k :: 0 <= k < |trace| && trace[k].Tail? && trace[k].v == o)
    || (exists k :: 0 <= k < |trace| && trace[k].Head? && trace[k].tail.Replays? && o in trace[k].tail.values)
  }

  lemma FromTraceExtends(loose: bool, trace: seq<ChainSignal>, o: Value)
    requires trace != [] && FromTrace(loose, trace[..|trace| - 1], o)
    ensures FromTrace(loose, trace, o)
  {
    var init := trace[..|trace| - 1];
    if exists k :: 0 <= k < |init| && init[k].Tail? && init[k].v == o {
      var k :| 0 <= k < |init| && init[k].Tail? && init[k].v == o;
      assert trace[k] == init[k];
    } else if exists k :: 0 <= k < |init| && init[k].Head? && init[k].tail.Replays? && o in init[k].tail.values {
      var k :| 0 <= k < |init| && init[k].Head? && init[k].tail.Replays? && o in init[k].tail.values;
      assert trace[k] == init[k];
    }
  }

  /** A chain emits nothing but values of the linked objects' streams, and
      `null` only when it is loose or a linked stream delivered it. */
  lemma {:induction false} ChainSound(loose: bool, head: string, trace: seq<ChainSignal>)
    ensures forall o :: o in ChainRun(loose, head, trace).out ==> FromTrace(loose, trace, o)
    decreases |trace|
  {
    if trace != [] {
      var init := trace[..|trace| - 1];
      var s := trace[|trace| - 1];
      ChainSound(loose, head, init);
      forall o | o in ChainRun(loose, head, trace).out ensures FromTrace(loose, trace, o) {
        if o in ChainRun(loose, head, init).out {
          FromTraceExtends(loose, trace, o);
        } else if s.Tail? {
          assert trace[|trace| - 1].v == o;
        } else if s.tail.Replays? && o in s.tail.values {
          assert trace[|trace| - 1] == s;
        }
      }
    }
  }

  /** `carriage1` and `carriage2` of the tests are the trackers 1 and 2. */
  function CarriageTrace(): seq<ChainSignal> {
    [Head(Undefined, Replays([])),
     Head(Ref(1), Replays([Num(0)])),
     Tail(1, Num(22)),
     Head(Ref(2), Replays([Num(0)])),
     Tail(2, Num(42)),
     Tail(1, Num(999)),
     Head(Ref(1), Replays([Num(999)])),
     Head(Null, Replays([])),
     Head(Ref(1), Replays([Num(999)]))]
  }

  lemma CarriagePrefixes()
    ensures var t := CarriageTrace();
      && t[..1][..0] == [] && t[..2][..1] == t[..1] && t[..3][..2] == t[..2]
      && t[..4][..3] == t[..3] && t[..5][..4] == t[..4] && t[..6][..5] == t[..5]
      && t[..7][..6] == t[..6] && t[..8][..7] == t[..7] && t[..8] == t[..|t| - 1]
  {
  }

  /** `passenger.p('carriage.x')`: the strict chain of the tests emits
      0, 22, 0, 42, 999, 999. */
  lemma StrictCarriageExample()
    ensures ChainRun(false, "carriage", CarriageTrace()).out ==
      [Num(0), Num(22), Num(0), Num(42), Num(999), Num(999)]
  {
    var t := CarriageTrace();
    CarriagePrefixes();
    assert ChainRun(false, "carriage", t[..1]) == ChainState(None, None, []);
    assert ChainRun(false, "carriage", t[..3]) == ChainState(Some(1), None, [Num(0), Num(22)]);
    assert ChainRun(false, "carriage", t[..6]) == ChainState(Some(2), None, [Num(0), Num(22), Num(0), Num(42)]);
    assert ChainRun(false, "carriage", t[..8]).out == [Num(0), Num(22), Num(0), Num(42), Num(999)];
  }

  /** `passenger.p('carriage?.x')`: the loose chain emits `null` wherever
      the strict one is silent: null, 0, 22, 0, 42, 999, null, 999. */
  lemma LooseCarriageExample()
    ensures ChainRun(true, "carriage", CarriageTrace()).out ==
      [Null, Num(0), Num(22), Num(0), Num(42), Num(999), Null, Num(999)]
  {
    var t := CarriageTrace();
    CarriagePrefixes();
    assert ChainRun(true, "carriage", t[..1]) == ChainState(None, None, [Null]);
    assert ChainRun(true, "carriage", t[..3]) == ChainState(Some(1), None, [Null, Num(0), Num(22)]);
    assert ChainRun(true, "carriage", t[..6]) == ChainState(Some(2), None, [Null, Num(0), Num(22), Num(0), Num(42)]);
    assert ChainRun(true, "carriage", t[..8]).out == [Null, Num(0), Num(22), Num(0), Num(42), Num(999), Null];
  }

  /** `person.e('phone.ring')`: an event tail replays nothing, so only the
      rings of the phone currently linked come through: 22, 42. */
  lemma PhoneRingExample()
    ensures ChainRun(false, "phone",
      [Head(Undefined, Replays([])),
       Head(Ref(1), Replays([])),
       Tail(1, Num(22)),
       Head(Ref(2), Replays([])),
       Tail(2, Num(42)),
       Tail(1, Num(999)),
       Head(Ref(1), Replays([])),
       Head(Null, Replays([])),
       Head(Ref(1), Replays([]))]).out == [Num(22), Num(42)]
  {
    var t := [Head(Undefined, Replays([])),
       Head(Ref(1), Replays([])),
       Tail(1, Num(22)),
       Head(Ref(2), Replays([])),
       Tail(2, Num(42)),
       Tail(1, Num(999)),
       Head(Ref(1), Replays([])),
       Head(Null, Replays([])),
       Head(Ref(1), Replays([]))];
    assert t[..1][..0] == [] && t[..2][..1] == t[..1] && t[..3][..2] == t[..2];
    assert t[..4][..3] == t[..3] && t[..5][..4] == t[..4] && t[..6][..5] == t[..5];
    assert t[..7][..6] == t[..6] && t[..8][..7] == t[..7] && t[..8] == t[..|t| - 1];
    assert ChainRun(false, "phone", t[..1]) == ChainState(None, None, []);
    assert ChainRun(false, "phone", t[..2]) == ChainState(Some(1), None, []);
    assert ChainRun(false, "phone", t[..3]) == ChainState(Some(1), None, [Num(22)]);
    assert ChainRun(false, "phone", t[..4]) == ChainState(Some(2), None, [Num(22)]);
    assert ChainRun(false, "phone", t[..5]) == ChainState(Some(2), None, [Num(22), Num(42)]);
    assert ChainRun(false, "phone", t[..6]) == ChainState(Some(2), None, [Num(22), Num(42)]);
    assert ChainRun(false, "phone", t[..7]) == ChainState(Some(1), None, [Num(22), Num(42)]);
  }

  /** A head value that is neither falsy nor a value tracker fails the chain. */
  lemma NotATrackerFails(loose: bool)
    ensures ChainRun(loose, "carriage", [Head(Num(7), Replays([]))]) ==
      ChainState(None, Some(ChainTarget("carriage")), [])
  {
    assert [Head(Num(7), Replays([]))][..0] == [];
  }
}

=== FILE: combinator.dfy ===
/**
  The stream `p(undefined, deps, passiveDeps, transformer)` builds for a
  derived property: `combineLatest` over the active dependencies followed by
  `withLatestFrom` over the passive ones. The dependencies' own streams are
  inputs here: a trace of the values each of them delivers, in the order
  they arrive.
 */
module Combinator {
  import opened Values

  /** A value delivered by active dependency `index` or by passive
      dependency `index`. */
  datatype Signal = Signal(active: bool, index: nat, v: Value)

  predicate AllPresent(xs: seq<Option<Value>>) {
    forall i :: 0 <= i < |xs| ==> xs[i].Some?
  }

  function Present(xs: seq<Option<Value>>): (r: seq<Value>)
    requires AllPresent(xs)
    ensures |r| == |xs| && forall i :: 0 <= i < |xs| ==> Some(r[i]) == xs[i]
  {
    seq(|xs|, i requires 0 <= i < |xs| => xs[i].value)
  }

  /** The latest value of each of `n` active (or passive) dependencies after
      a trace; `None` for one that has not delivered yet. */
  function Latest(n: nat, active: bool, trace: seq<Signal>): (r: seq<Option<Value>>)
    ensures |r| == n
    decreases |trace|
  {
    if trace == [] then seq(n, _ => None)
    else
      var prev := Latest(n, active, trace[..|trace| - 1]);
      var s := trace[|trace| - 1];
      if s.active == active && s.index < n then prev[s.index := Some(s.v)] else prev
  }

  /** What the last signal of a trace makes the stream emit: only an active
      signal does, and only once every dependency has a value. */
  function Fired(n: nat, m: nat, combiner: seq<Value> -> Value, trace: seq<Signal>): seq<Value>
    requires trace != []
  {
    var s := trace[|trace| - 1];
    var a := Latest(n, true, trace);
    var p := Latest(m, false, trace);
    if s.active && s.index < n && AllPresent(a) && AllPresent(p) then [combiner(Present(a) + Present(p))]
    else []
  }

  /** Everything the derived stream emits for a trace. */
  function Outputs(n: nat, m: nat, combiner: seq<Value> -> Value, trace: seq<Signal>): seq<Value>
    decreases |trace|
  {
    if trace == [] then []
    else Outputs(n, m, combiner, trace[..|trace| - 1]) + Fired(n, m, combiner, trace)
  }

  /** The stream with `active` active and `passive` passive dependencies. */
  class Combination {
    const active: nat
    const passive: nat
    const combiner: seq<Value> -> Value
    var activeLatest: seq<Option<Value>>
    var passiveLatest: seq<Option<Value>>
    ghost var trace: seq<Signal>
    ghost var emitted: seq<Value>

    ghost predicate Valid()
      reads this
    {
      && activeLatest == Latest(active, true, trace)
      && passiveLatest == Latest(passive, false, trace)
      && emitted == Outputs(active, passive, combiner, trace)
    }

    constructor(active: nat, passive: nat, combiner: seq<Value> -> Value)
      ensures Valid() && trace == [] && emitted == []
      ensures this.active == active && this.passive == passive && this.combiner == combiner
    {
      this.active := active;
      this.passive := passive;
      this.combiner := combiner;
      activeLatest := seq(active, _ => None);
      passiveLatest := seq(passive, _ => None);
      trace := [];
      emitted := [];
    }

    /** Active dependency `i` delivers `v`: the stream emits the combined
        latest values, once all dependencies have delivered. */
    method OnActive(i: nat, v: Value) returns (out: seq<Value>)
      requires Valid() && i < active
      modifies this
      ensures Valid()
      ensures trace == old(trace) + [Signal(true, i, v)] && emitted == old(emitted) + out
      ensures activeLatest == old(activeLatest)[i := Some(v)] && passiveLatest == old(passiveLatest)
      ensures out != [] <==> AllPresent(activeLatest) && AllPresent(passiveLatest)
      ensures out != [] ==> out == [combiner(Present(activeLatest) + Present(passiveLatest))]
    {
      trace := trace + [Signal(true, i, v)];
      assert trace[..|trace| - 1] == old(trace);
      activeLatest := activeLatest[i := Some(v)];
      if AllPresent(activeLatest) && AllPresent(passiveLatest) {
        out := [combiner(Present(activeLatest) + Present(passiveLatest))];
      } else {
        out := [];
      }
      emitted := emitted + out;
    }

    /** Passive dependency `j` delivers `v`: remembered, never emitted. */
    method OnPassive(j: nat, v: Value) returns (out: seq<Value>)
      requires Valid() && j < passive
      modifies this
      ensures Valid()
      ensures trace == old(trace) + [Signal(false, j, v)] && emitted == old(emitted) + out
      ensures passiveLatest == old(passiveLatest)[j := Some(v)] && activeLatest == old(activeLatest)
      ensures out == []
    {
      trace := trace + [Signal(false, j, v)];
      assert trace[..|trace| - 1] == old(trace);
      passiveLatest := passiveLatest[j := Some(v)];
      out := [];
    }

    /** One signal, to the active or passive side it comes from. */
    method OnSignal(s: Signal) returns (out: seq<Value>)
      requires Valid() && s.index < (if s.active then active else passive)
      modifies this
      ensures Valid()
      ensures trace == old(trace) + [s] && emitted == old(emitted) + out
    {
      if s.active {
        out := OnActive(s.index, s.v);
      } else {
        out := OnPassive(s.index, s.v);
      }
    }

    /** Feeds a whole trace, one signal after the other. */
    method Feed(signals: seq<Signal>) returns (out: seq<Value>)
      requires Valid()
      requires forall k :: 0 <= k < |signals| ==>
        signals[k].index < (if signals[k].active then active else passive)
      modifies this
      ensures Valid()
      ensures trace == old(trace) + signals && emitted == old(emitted) + out
    {
      out := [];
      for k := 0 to |signals|
        invariant Valid()
        invariant trace == old(trace) + signals[..k] && emitted == old(emitted) + out
      {
        var o := OnSignal(signals[k]);
        assert signals[..k + 1] == signals[..k] + [signals[k]];
        out := out + o;
      }
      assert signals[..|signals|] == signals;
    }
  }

  /** Some signal of the trace came from active (or passive) dependency `i`. */
  predicate Delivered(trace: seq<Signal>, active: bool, i: nat) {
    exists k :: 0 <= k < |trace| && trace[k].active == active && trace[k].index == i
  }

  lemma DeliveredExtends(trace: seq<Signal>, active: bool, i: nat)
    requires trace != [] && Delivered(trace[..|trace| - 1], active, i)
    ensures Delivered(trace, active, i)
  {
    var init := trace[..|trace| - 1];
    var k :| 0 <= k < |init| && init[k].active == active && init[k].index == i;
    assert trace[k] == init[k];
  }

  /** A dependency has a latest value exactly when it delivered one. */
  lemma {:induction false} LatestPresent(n: nat, active: bool, trace: seq<Signal>, i: nat)
    requires i < n
    ensures Latest(n, active, trace)[i].Some? <==> Delivered(trace, active, i)
    decreases |trace|
  {
    if trace != [] {
      var init := trace[..|trace| - 1];
      LatestPresent(n, active, init, i);
      if Delivered(init, active, i) {
        DeliveredExtends(trace, active, i);
      }
      if Delivered(trace, active, i) {
        var k :| 0 <= k < |trace| && trace[k].active == active && trace[k].index == i;
        if k < |init| {
          assert init[k] == trace[k];
        }
      }
    }
  }

  /** Nothing is emitted before every active and every passive dependency
      has delivered a value. */
  lemma {:induction false} OutputsBarrier(n: nat, m: nat, combiner: seq<Value> -> Value, trace: seq<Signal>)
    requires Outputs(n, m, combiner, trace) != []
    ensures forall i :: 0 <= i < n ==> Delivered(trace, true, i)
    ensures forall j :: 0 <= j < m ==> Delivered(trace, false, j)
    decreases |trace|
  {
    var init := trace[..|trace| - 1];
    if Outputs(n, m, combiner, init) != [] {
      OutputsBarrier(n, m, combiner, init);
      forall i | 0 <= i < n ensures Delivered(trace, true, i) {
        DeliveredExtends(trace, true, i);
      }
      forall j | 0 <= j < m ensures Delivered(trace, false, j) {
        DeliveredExtends(trace, false, j);
      }
    } else {
      forall i | 0 <= i < n ensures Delivered(trace, true, i) {
        LatestPresent(n, true, trace, i);
      }
      forall j | 0 <= j < m ensures Delivered(trace, false, j) {
        LatestPresent(m, false, trace, j);
      }
    }
  }

  /** The number of signals from active dependencies. */
  function ActiveCount(trace: seq<Signal>): nat
    decreases |trace|
  {
    if trace == [] then 0
    else ActiveCount(trace[..|trace| - 1]) + (if trace[|trace| - 1].active then 1 else 0)
  }

  /** Passive dependencies alone never make the stream emit, and each active
      signal makes it emit at most once. */
  lemma {:induction false} OutputsCount(n: nat, m: nat, combiner: seq<Value> -> Value, trace: seq<Signal>)
    ensures |Outputs(n, m, combiner, trace)| <= ActiveCount(trace)
    decreases |trace|
  {
    if trace != [] {
      OutputsCount(n, m, combiner, trace[..|trace| - 1]);
    }
  }

  /** The derived `Vector` property of the tests: `p(['x', 'y'], ['z'],
      (x, y, z) => [x, y, z])`, where `z` replays 2 first, then `x` and `y`
      replay 0 and 1, then `y` becomes 5, `z` becomes 9 and `y` becomes 7. */
  lemma VectorExample()
    ensures var combiner := (vs: seq<Value>) => Arr(vs);
      Outputs(2, 1, combiner,
        [Signal(false, 0, Num(2)), Signal(true, 0, Num(0)), Signal(true, 1, Num(1)),
         Signal(true, 1, Num(5)), Signal(false, 0, Num(9)), Signal(true, 1, Num(7))])
      == [Arr([Num(0), Num(1), Num(2)]), Arr([Num(0), Num(5), Num(2)]), Arr([Num(0), Num(7), Num(9)])]
  {
    var combiner := (vs: seq<Value>) => Arr(vs);
    var t := [Signal(false, 0, Num(2)), Signal(true, 0, Num(0)), Signal(true, 1, Num(1)),
              Signal(true, 1, Num(5)), Signal(false, 0, Num(9)), Signal(true, 1, Num(7))];
    assert t[..1][..0] == [];
    assert t[..2][..1] == t[..1];
    assert t[..3][..2] == t[..2];
    assert t[..4][..3] == t[..3];
    assert t[..5][..4] == t[..4];
    assert t[..6] == t && t[..5] == t[..|t| - 1];
    var none2: seq<Option<Value>> := seq(2, _ => None);
    assert none2 == [None, None];
    var none1: seq<Option<Value>> := seq(1, _ => None);
    assert none1 == [None];
    assert Latest(2, true, t[..1]) == [None, None];
    assert Latest(1, false, t[..1]) == [Some(Num(2))];
    assert Latest(2, true, t[..2]) == [Some(Num(0)), None];
    assert Latest(1, false, t[..2]) == [Some(Num(2))];
    assert Outputs(2, 1, combiner, t[..1]) == [];
    assert Latest(2, true, t[..2])[1].None?;
    assert Outputs(2, 1, combiner, t[..2]) == [];
    var a3 := Latest(2, true, t[..3]);
    var p3 := Latest(1, false, t[..3]);
    assert a3 == [Some(Num(0)), Some(Num(1))] && p3 == [Some(Num(2))];
    assert Present(a3) + Present(p3) == [Num(0), Num(1), Num(2)];
    assert Outputs(2, 1, combiner, t[..3]) == [Arr([Num(0), Num(1), Num(2)])];
    var a4 := Latest(2, true, t[..4]);
    assert a4 == [Some(Num(0)), Some(Num(5))];
    assert Latest(1, false, t[..4]) == p3;
    assert Present(a4) + Present(p3) == [Num(0), Num(5), Num(2)];
    assert Outputs(2, 1, combiner, t[..4]) == [Arr([Num(0), Num(1), Num(2)]), Arr([Num(0), Num(5), Num(2)])];
    assert Latest(2, true, t[..5]) == a4;
    assert Latest(1, false, t[..5]) == [Some(Num(9))];
    assert Outputs(2, 1, combiner, t[..5]) == Outputs(2, 1, combiner, t[..4]);
    var a6 := Latest(2, true, t);
    var p6 := Latest(1, false, t);
    assert a6 == [Some(Num(0)), Some(Num(7))] && p6 == [Some(Num(9))];
    assert Present(a6) + Present(p6) == [Num(0), Num(7), Num(9)];
  }

  // ---------------------------------------------------------------------------
  // pObj

  /** `Object.assign({}, ...vals.map((v, i) => ({[names[i]]: v})))`: the
      dependencies' values keyed by their names, a later duplicate name
      overriding an earlier one. */
  function Keyed(names: seq<string>, vals: seq<Value>): (r: map<string, Value>)
    requires |names| == |vals|
    ensures r.Keys == set i | 0 <= i < |names| :: names[i]
    ensures names != [] ==> r[names[|names| - 1]] == vals[|vals| - 1]
    decreases |names|
  {
    if names == [] then map[]
    else Keyed(names[..|names| - 1], vals[..|vals| - 1])[names[|names| - 1] := vals[|vals| - 1]]
  }

  /** Each name holds the value of its last occurrence. */
  lemma {:induction false} KeyedLastWins(names: seq<string>, vals: seq<Value>, i: nat)
    requires |names| == |vals| && i < |names|
    requires forall j :: i < j < |names| ==> names[j] != names[i]
    ensures names[i] in Keyed(names, vals) && Keyed(names, vals)[names[i]] == vals[i]
    decreases |names|
  {
    if i < |names| - 1 {
      KeyedLastWins(names[..|names| - 1], vals[..|vals| - 1], i);
    }
  }

  /** The combiner `pObj` hands to `p`: the values keyed by the active then
      the passive names, given to the transformer as one object. */
  function PObjCombiner(activeNames: seq<string>, passiveNames: seq<string>,
                        transformer: Value -> Value): seq<Value> -> Value
  {
    vs => if |vs| == |activeNames + passiveNames|
          then transformer(Obj(Keyed(activeNames + passiveNames, vs)))
          else Undefined
  }

  /** With distinct names, every name of `pObj`'s object holds the value of
      its own dependency. */
  lemma PObjFields(activeNames: seq<string>, passiveNames: seq<string>, vs: seq<Value>, i: nat)
    requires |vs| == |activeNames| + |passiveNames| && i < |vs|
    requires forall j, k :: 0 <= j < k < |activeNames + passiveNames| ==>
      (activeNames + passiveNames)[j] != (activeNames + passiveNames)[k]
    ensures var names := activeNames + passiveNames;
      var obj := PObjCombiner(activeNames, passiveNames, v => v)(vs);
      obj.Obj? && names[i] in obj.fields && obj.fields[names[i]] == vs[i]
  {
    KeyedLastWins(activeNames + passiveNames, vs, i);
  }
}

=== FILE: misc.dfy ===
/**
  The string and collection helpers of the library: whitespace collapsing,
  message assembly, optional-array normalisation, default-setting, keyed
  `match`, string repetition and range normalisation.
 */
module Misc {
  import opened Values

  // ---------------------------------------------------------------------------
  // arrayContainsValue

  /** `array.includes(value)` */
  function ArrayContainsValue(xs: seq<Value>, v: Value): (b: bool)
    ensures b <==> exists i :: 0 <= i < |xs| && xs[i] == v
  {
    if xs == [] then false
    else if xs[0] == v then true
    else
      var rest := ArrayContainsValue(xs[1..], v);
      assert rest ==> exists i :: 0 <= i < |xs| && xs[i] == v by {
        if rest {
          var j :| 0 <= j < |xs[1..]| && xs[1..][j] == v;
          assert xs[j + 1] == v;
        }
      }
      rest
  }

  // ---------------------------------------------------------------------------
  // Whitespace: the characters matched by `\s` and removed by `trim`

  predicate IsWhitespace(c: char) {
    c == '\t' || c == '\n' || c == '\U{000B}' || c == '\U{000C}' || c == '\r' || c == ' '
    || c == '\U{00A0}' || c == '\U{1680}' || ('\U{2000}' <= c <= '\U{200A}')
    || c == '\U{2028}' || c == '\U{2029}' || c == '\U{202F}' || c == '\U{205F}'
    || c == '\U{3000}' || c == '\U{FEFF}'
  }

  predicate AllWhitespace(s: string) {
    forall i :: 0 <= i < |s| ==> IsWhitespace(s[i])
  }

  /** The leading run of whitespace removed (`trimStart`). */
  function DropWhitespace(s: string): (r: string)
    ensures |r| <= |s|
    ensures s != [] && IsWhitespace(s[0]) ==> |r| < |s|
    ensures r == [] || !IsWhitespace(r[0])
  {
    if s != [] && IsWhitespace(s[0]) then DropWhitespace(s[1..]) else s
  }

  /** What DropWhitespace removes is a prefix made of whitespace only. */
  lemma {:induction false} DropWhitespaceShape(s: string)
    ensures var r := DropWhitespace(s);
      r == s[|s| - |r|..] && AllWhitespace(s[..|s| - |r|])
  {
    if s != [] && IsWhitespace(s[0]) {
      DropWhitespaceShape(s[1..]);
      var r := DropWhitespace(s);
      assert s[1..][|s| - 1 - |r|..] == s[|s| - |r|..];
      assert s[..|s| - |r|] == [s[0]] + s[1..][..|s| - 1 - |r|];
    }
  }

  /** The characters of `s` that are not whitespace, in order. */
  function Visible(s: string): string {
    if s == [] then []
    else if IsWhitespace(s[0]) then Visible(s[1..])
    else [s[0]] + Visible(s[1..])
  }

  /** Every whitespace character of `s` is a single space standing alone. */
  predicate Collapsed(s: string) {
    forall i :: 0 <= i < |s| && IsWhitespace(s[i]) ==>
      s[i] == ' ' && (i + 1 == |s| || !IsWhitespace(s[i + 1]))
  }

  // ---------------------------------------------------------------------------
  // simpleSpaced

  /** `str.replace(/\s+/mg, ' ')`: every maximal run of whitespace becomes
      one space. */
  function SimpleSpaced(s: string): string
    decreases |s|
  {
    if s == [] then []
    else if IsWhitespace(s[0]) then
      var rest := DropWhitespace(s);
      assert rest != s;
      " " + SimpleSpaced(rest)
    else [s[0]] + SimpleSpaced(s[1..])
  }

  lemma {:induction false} DropAppend(a: string, t: string)
    ensures DropWhitespace(a + t) == if DropWhitespace(a) == [] then DropWhitespace(t) else DropWhitespace(a) + t
    decreases |a|
  {
    if a == [] {
      assert a + t == t;
    } else if IsWhitespace(a[0]) {
      assert (a + t)[1..] == a[1..] + t;
      DropAppend(a[1..], t);
    } else {
      assert (a + t)[0] == a[0];
    }
  }

  lemma {:induction false} DropAllWhitespace(w: string)
    requires AllWhitespace(w)
    ensures DropWhitespace(w) == []
  {
    if w != [] {
      DropAllWhitespace(w[1..]);
    }
  }

  lemma {:induction false} SimpleSpacedRun(w: string)
    requires w != [] && AllWhitespace(w)
    ensures SimpleSpaced(w) == " "
  {
    DropAllWhitespace(w);
  }

  /** Cutting at a visible character commutes with collapsing: together with
      SimpleSpacedRun this pins down every output character. */
  lemma {:induction false} SimpleSpacedSplit(a: string, c: char, b: string)
    requires !IsWhitespace(c)
    ensures SimpleSpaced(a + [c] + b) == SimpleSpaced(a) + [c] + SimpleSpaced(b)
    decreases |a|
  {
    var s := a + [c] + b;
    if a == [] {
      assert s == [c] + b;
      assert s[1..] == b;
    } else if !IsWhitespace(a[0]) {
      assert s[0] == a[0];
      assert s[1..] == a[1..] + [c] + b;
      SimpleSpacedSplit(a[1..], c, b);
    } else {
      var da := DropWhitespace(a);
      assert |da| < |a|;
      SimpleSpacedSplitAfterRun(a, c, b);
      if da != [] {
        SimpleSpacedSplit(da, c, b);
      }
    }
  }

  /** The step of SimpleSpacedSplit where `a` opens with whitespace: the run
      is collapsed first, then the rest of `a` is cut. */
  lemma {:induction false} SimpleSpacedSplitAfterRun(a: string, c: char, b: string)
    requires !IsWhitespace(c) && a != [] && IsWhitespace(a[0])
    ensures var da := DropWhitespace(a);
      SimpleSpaced(a) == " " + SimpleSpaced(da) &&
      SimpleSpaced(a + [c] + b) == " " + SimpleSpaced(da + [c] + b)
  {
    var s := a + [c] + b;
    assert s[0] == a[0];
    DropAppend(a, [c] + b);
    assert s == a + ([c] + b);
    var da := DropWhitespace(a);
    assert DropWhitespace([c] + b) == [c] + b;
    if da == [] {
      assert da + [c] + b == [c] + b;
    } else {
      assert DropWhitespace(s) == da + [c] + b;
    }
  }

  /** What comes out of simpleSpaced has no whitespace run longer than one
      space and no whitespace other than spaces. */
  lemma {:induction false} SimpleSpacedCollapsed(s: string)
    ensures Collapsed(SimpleSpaced(s))
    decreases |s|
  {
    if s == [] {
    } else if IsWhitespace(s[0]) {
      var rest := DropWhitespace(s);
      assert rest != s;
      SimpleSpacedCollapsed(rest);
      SimpleSpacedStart(rest);
    } else {
      SimpleSpacedCollapsed(s[1..]);
    }
  }

  lemma {:induction false} SimpleSpacedStart(s: string)
    ensures SimpleSpaced(s) == [] <==> s == []
    ensures s != [] && !IsWhitespace(s[0]) ==> SimpleSpaced(s)[0] == s[0]
    ensures s != [] && IsWhitespace(s[0]) ==> SimpleSpaced(s)[0] == ' '
  {
  }

  /** simpleSpaced keeps every non-whitespace character, in order. */
  lemma {:induction false} SimpleSpacedVisible(s: string)
    ensures Visible(SimpleSpaced(s)) == Visible(s)
    decreases |s|
  {
    if s == [] {
    } else if IsWhitespace(s[0]) {
      var rest := DropWhitespace(s);
      assert rest != s;
      SimpleSpacedVisible(rest);
      DropWhitespaceShape(s);
      VisibleSkipsWhitespace(s, |s| - |rest|);
      assert (" " + SimpleSpaced(rest))[1..] == SimpleSpaced(rest);
    } else {
      SimpleSpacedVisible(s[1..]);
      assert ([s[0]] + SimpleSpaced(s[1..]))[1..] == SimpleSpaced(s[1..]);
    }
  }

  lemma {:induction false} VisibleSkipsWhitespace(s: string, k: nat)
    requires k <= |s| && AllWhitespace(s[..k])
    ensures Visible(s) == Visible(s[k..])
    decreases k
  {
    if k > 0 {
      assert IsWhitespace(s[..k][0]);
      assert s[1..][..k - 1] == s[..k][1..];
      VisibleSkipsWhitespace(s[1..], k - 1);
      assert s[1..][k - 1..] == s[k..];
    }
  }

  /** A string already collapsed is left as it is. */
  lemma {:induction false} SimpleSpacedFixed(s: string)
    requires Collapsed(s)
    ensures SimpleSpaced(s) == s
    decreases |s|
  {
    if s == [] {
    } else if IsWhitespace(s[0]) {
      assert s[0] == ' ';
      var rest := DropWhitespace(s);
      assert |s| == 1 || !IsWhitespace(s[1]);
      assert s[1..] == [] || s[1..][0] == s[1];
      assert rest == DropWhitespace(s[1..]);
      assert DropWhitespace(s[1..]) == s[1..];
      assert Collapsed(s[1..]) by {
        forall i | 0 <= i < |s[1..]| && IsWhitespace(s[1..][i])
          ensures s[1..][i] == ' ' && (i + 1 == |s[1..]| || !IsWhitespace(s[1..][i + 1]))
        {
          assert s[i + 1] == s[1..][i];
        }
      }
      SimpleSpacedFixed(s[1..]);
    } else {
      assert Collapsed(s[1..]) by {
        forall i | 0 <= i < |s[1..]| && IsWhitespace(s[1..][i])
          ensures s[1..][i] == ' ' && (i + 1 == |s[1..]| || !IsWhitespace(s[1..][i + 1]))
        {
          assert s[i + 1] == s[1..][i];
        }
      }
      SimpleSpacedFixed(s[1..]);
    }
  }

  /** Applying simpleSpaced twice is the same as applying it once. */
  lemma {:induction false} SimpleSpacedIdempotent(s: string)
    ensures SimpleSpaced(SimpleSpaced(s)) == SimpleSpaced(s)
  {
    SimpleSpacedCollapsed(s);
    SimpleSpacedFixed(SimpleSpaced(s));
  }

  // ---------------------------------------------------------------------------
  // trim

  /** `trimEnd` */
  function DropTrailingWhitespace(s: string): (r: string)
    ensures |r| <= |s|
    ensures r == [] || !IsWhitespace(r[|r| - 1])
  {
    if s != [] && IsWhitespace(s[|s| - 1]) then DropTrailingWhitespace(s[..|s| - 1]) else s
  }

  /** What DropTrailingWhitespace removes is a suffix of whitespace only. */
  lemma {:induction false} DropTrailingShape(s: string)
    ensures var r := DropTrailingWhitespace(s);
      r == s[..|r|] && AllWhitespace(s[|r|..])
  {
    if s != [] && IsWhitespace(s[|s| - 1]) {
      var s' := s[..|s| - 1];
      DropTrailingShape(s');
      var r := DropTrailingWhitespace(s);
      assert s'[..|r|] == s[..|r|];
      assert s[|r|..] == s'[|r|..] + [s[|s| - 1]];
    }
  }

  /** `r` sits at offset `k` of `s` with only whitespace around it. */
  predicate TrimmedAt(s: string, r: string, k: nat) {
    k + |r| <= |s| && s[k..k + |r|] == r && AllWhitespace(s[..k]) && AllWhitespace(s[k + |r|..])
  }

  /** `str.trim()`: the text between the leading and trailing whitespace. */
  function Trim(s: string): string {
    DropTrailingWhitespace(DropWhitespace(s))
  }

  /** trim removes exactly the whitespace at both ends: what is left starts
      and ends with a visible character and sits in `s` between two runs of
      whitespace. */
  lemma {:induction false} TrimShape(s: string)
    ensures var r := Trim(s);
      (r == [] || (!IsWhitespace(r[0]) && !IsWhitespace(r[|r| - 1]))) &&
      TrimmedAt(s, r, |s| - |DropWhitespace(s)|)
  {
    var front := DropWhitespace(s);
    var r := DropTrailingWhitespace(front);
    var k := |s| - |front|;
    DropWhitespaceShape(s);
    DropTrailingShape(front);
    assert front == s[k..];
    assert front[..|r|] == s[k..k + |r|];
    assert front[|r|..] == s[k + |r|..];
  }

  // ---------------------------------------------------------------------------
  // humanMsg

  /** The untrimmed text of a tagged template: the first literal as it is,
      then each value followed by the next literal with its whitespace runs
      collapsed. */
  function Message(strings: seq<string>, vals: seq<string>): string
    requires |strings| == |vals| + 1
    decreases |vals|
  {
    if vals == [] then strings[0]
    else Message(strings[..|strings| - 1], vals[..|vals| - 1])
         + vals[|vals| - 1] + SimpleSpaced(strings[|strings| - 1])
  }

  /** The first literal is kept verbatim at the front. */
  lemma {:induction false} MessageStartsWithFirstLiteral(strings: seq<string>, vals: seq<string>)
    requires |strings| == |vals| + 1
    ensures |strings[0]| <= |Message(strings, vals)|
    ensures Message(strings, vals)[..|strings[0]|] == strings[0]
    decreases |vals|
  {
    if vals != [] {
      MessageStartsWithFirstLiteral(strings[..|strings| - 1], vals[..|vals| - 1]);
    }
  }

  /** `humanMsg` as a template tag: `strings` are the literal pieces, `vals`
      the interpolated values (already strings); a tagged template always
      has one more literal than values. */
  method HumanMsg(strings: seq<string>, vals: seq<string>) returns (r: string)
    requires |strings| == |vals| + 1
    ensures r == Trim(Message(strings, vals))
    ensures r == [] || (!IsWhitespace(r[0]) && !IsWhitespace(r[|r| - 1]))
    ensures |strings[0]| <= |Message(strings, vals)| && Message(strings, vals)[..|strings[0]|] == strings[0]
  {
    var result := strings[0];
    for i := 0 to |vals|
      invariant result == Message(strings[..i + 1], vals[..i])
    {
      assert strings[..i + 2][..i + 1] == strings[..i + 1];
      assert vals[..i + 1][..i] == vals[..i];
      result := result + vals[i] + SimpleSpaced(strings[i + 1]);
    }
    assert strings[..|vals| + 1] == strings && vals[..|vals|] == vals;
    r := Trim(result);
    TrimShape(result);
    MessageStartsWithFirstLiteral(strings, vals);
  }

  /** simpleSpaced keeps a leading visible character. */
  lemma SimpleSpacedVisibleHead(c: char, s: string)
    requires !IsWhitespace(c)
    ensures SimpleSpaced([c] + s) == [c] + SimpleSpaced(s)
  {
    assert ([c] + s)[1..] == s;
  }

  /** simpleSpaced keeps a single space before a visible character. */
  lemma SimpleSpacedSpaceHead(c: char, s: string)
    requires !IsWhitespace(c)
    ensures SimpleSpaced([' ', c] + s) == [' ', c] + SimpleSpaced(s)
  {
    assert ([' ', c] + s)[1..] == [c] + s;
    assert DropWhitespace([' ', c] + s) == [c] + s;
    SimpleSpacedVisibleHead(c, s);
  }

  lemma ExampleWordCollapsed()
    ensures SimpleSpaced("xists.\n") == "xists. "
  {
  }

  lemma ExampleLiteralCollapsed()
    ensures SimpleSpaced("' exists.\n") == "' exists. "
  {
    var w := "xists.\n";
    ExampleWordCollapsed();
    SimpleSpacedSpaceHead('e', w);
    SimpleSpacedVisibleHead('\'', [' ', 'e'] + w);
    assert ['\''] + ([' ', 'e'] + w) == "' exists.\n";
    assert ['\''] + ([' ', 'e'] + SimpleSpaced(w)) == "' exists. ";
  }

  lemma ExampleAssembled()
    ensures Message(["\n  No property '", "' exists.\n"], ["x"]) == "\n  No property 'x' exists. "
  {
    var strings := ["\n  No property '", "' exists.\n"];
    ExampleLiteralCollapsed();
    assert strings[..1] == ["\n  No property '"];
    assert Message(strings[..1], []) == "\n  No property '";
  }

  /** A whitespace prefix in front of a string that starts with a visible
      character is exactly what `DropWhitespace` removes. */
  lemma {:induction false} DropWhitespacePrefix(w: string, s: string)
    requires AllWhitespace(w) && (s == [] || !IsWhitespace(s[0]))
    ensures DropWhitespace(w + s) == s
    decreases |w|
  {
    if w != [] {
      assert (w + s)[0] == w[0] && (w + s)[1..] == w[1..] + s;
      DropWhitespacePrefix(w[1..], s);
    } else {
      assert w + s == s;
    }
  }

  lemma ExampleFrontTrimmed()
    ensures DropWhitespace("\n  No property 'x' exists. ") == "No property 'x' exists. "
  {
    var w := "\n  ";
    var f := "No property 'x' exists. ";
    assert AllWhitespace(w);
    DropWhitespacePrefix(w, f);
    assert w + f == "\n  No property 'x' exists. ";
  }

  lemma ExampleBackTrimmed()
    ensures DropTrailingWhitespace("No property 'x' exists. ") == "No property 'x' exists."
  {
    var f := "No property 'x' exists. ";
    assert f[..|f| - 1] == "No property 'x' exists.";
  }

  /** A message in the style of the library's assertion texts comes out on
      one line without the surrounding layout. */
  lemma MessageExample()
    ensures Trim(Message(["\n  No property '", "' exists.\n"], ["x"])) == "No property 'x' exists."
  {
    ExampleAssembled();
    ExampleFrontTrimmed();
    ExampleBackTrimmed();
  }

  // ---------------------------------------------------------------------------
  // mapOptionalArray, wrapInArray

  /** `mapOptionalArray(val, fn)`: nothing becomes an empty array, an array
      is mapped element by element, a single value is mapped on its own. */
  function MapOptionalArray(val: Value, fn: Value -> Value): (r: Value)
    ensures val.Undefined? ==> r == Arr([])
    ensures val.Arr? ==> (r.Arr? && |r.items| == |val.items| &&
      forall i :: 0 <= i < |val.items| ==> r.items[i] == fn(val.items[i]))
    ensures !val.Undefined? && !val.Arr? ==> r == fn(val)
  {
    match val
    case Undefined => Arr([])
    case Arr(xs) => Arr(seq(|xs|, i requires 0 <= i < |xs| => fn(xs[i])))
    case _ => fn(val)
  }

  /** `wrapInArray(val)`: nothing becomes `[]`, an array or a set gives its
      elements in order, anything else is wrapped in a one-element array. */
  function WrapInArray(val: Value): (r: seq<Value>)
    ensures val.Undefined? ==> r == []
    ensures val.Arr? ==> r == val.items
    ensures val.SetOf? ==> r == val.members
    ensures !val.Undefined? && !val.Arr? && !val.SetOf? ==> r == [val]
  {
    match val
    case Undefined => []
    case Arr(xs) => xs
    case SetOf(xs) => xs
    case _ => [val]
  }

  /** Element-wise map of a plain sequence. */
  function MapSeq(fn: Value -> Value, xs: seq<Value>): (r: seq<Value>)
    ensures |r| == |xs| && forall i :: 0 <= i < |xs| ==> r[i] == fn(xs[i])
  {
    seq(|xs|, i requires 0 <= i < |xs| => fn(xs[i]))
  }

  /** The two normalisations agree: wrapping the mapped value gives the
      mapped wrapping, except for a set (mapOptionalArray treats it as one
      value) and for a single value mapped to something wrapInArray unwraps. */
  lemma WrapMapCommute(val: Value, fn: Value -> Value)
    requires !val.SetOf?
    requires !val.Undefined? && !val.Arr? ==> var y := fn(val); !y.Undefined? && !y.Arr? && !y.SetOf?
    ensures WrapInArray(MapOptionalArray(val, fn)) == MapSeq(fn, WrapInArray(val))
  {
  }

  // ---------------------------------------------------------------------------
  // Plain objects mutated in place: setDefault, normalizeToRange

  /** A plain JavaScript object whose own properties are updated in place. */
  class JsObject {
    var fields: map<string, Value>

    constructor (fields: map<string, Value>)
      ensures this.fields == fields
    {
      this.fields := fields;
    }
  }

  /** `obj[key]`: an absent property reads as undefined. */
  function Field(m: map<string, Value>, key: string): Value {
    if key in m then m[key] else Undefined
  }

  /** The properties after `setDefault(obj, key, val)`. */
  function WithDefault(m: map<string, Value>, key: string, val: Value): (r: map<string, Value>)
    ensures Field(r, key) == if Field(m, key).Undefined? then val else Field(m, key)
    ensures forall k :: k != key ==> Field(r, k) == Field(m, k)
    ensures r.Keys == m.Keys + (if Field(m, key).Undefined? then {key} else {})
  {
    if Field(m, key).Undefined? then m[key := val] else m
  }

  /** `setDefault(obj, key, val)`: writes only an undefined key. */
  method SetDefault(obj: JsObject, key: string, val: Value)
    modifies obj
    ensures obj.fields == WithDefault(old(obj.fields), key, val)
  {
    if Field(obj.fields, key).Undefined? {
      obj.fields := obj.fields[key := val];
    }
  }

  /** A second setDefault has no effect, whatever value it offers, unless
      the first one wrote undefined itself. */
  lemma SetDefaultTwice(m: map<string, Value>, key: string, v1: Value, v2: Value)
    requires !v1.Undefined?
    ensures WithDefault(WithDefault(m, key, v1), key, v2) == WithDefault(m, key, v1)
  {
  }

  /** A numeric range with infinite bounds for missing ones. */
  datatype Range = Range(min: Value, max: Value)

  /** `val.class === 'Number'` */
  predicate IsNumberClass(m: map<string, Value>) {
    Field(m, "class") == Str("Number")
  }

  /** A non-numeric bound becomes the given infinity. */
  function Bound(v: Value, negative: bool): (r: Value)
    ensures IsNumber(r)
    ensures IsNumber(v) ==> r == v
  {
    if IsNumber(v) then v else Infinity(negative)
  }

  /** The object's properties after normalizeToRange: a non-numeric `min` or
      `max` is overwritten with an infinity (only for an object that is not
      of class Number; that one is replaced, not changed). */
  function Bounded(m: map<string, Value>): map<string, Value> {
    var m1 := if IsNumber(Field(m, "min")) then m else m["min" := Infinity(true)];
    if IsNumber(Field(m1, "max")) then m1 else m1["max" := Infinity(false)]
  }

  /** The range normalizeToRange returns. */
  function Normalized(m: map<string, Value>): (r: Range)
    ensures IsNumber(r.min) && IsNumber(r.max)
    ensures IsNumberClass(m) && IsNumber(Field(m, "value")) ==> r.min == r.max == Field(m, "value")
    ensures IsNumberClass(m) && !IsNumber(Field(m, "value")) ==> r == Range(Infinity(true), Infinity(false))
    ensures !IsNumberClass(m) ==> r == Range(Bound(Field(m, "min"), true), Bound(Field(m, "max"), false))
  {
    if IsNumberClass(m) then
      Range(Bound(Field(m, "value"), true), Bound(Field(m, "value"), false))
    else
      Range(Bound(Field(m, "min"), true), Bound(Field(m, "max"), false))
  }

  /** `normalizeToRange(val)` */
  method NormalizeToRange(obj: JsObject) returns (r: Range)
    modifies obj
    ensures r == Normalized(old(obj.fields))
    ensures obj.fields == if IsNumberClass(old(obj.fields)) then old(obj.fields) else Bounded(old(obj.fields))
  {
    if IsNumberClass(obj.fields) {
      var v := Field(obj.fields, "value");
      r := Range(Bound(v, true), Bound(v, false));
    } else {
      if !IsNumber(Field(obj.fields, "min")) {
        obj.fields := obj.fields["min" := Infinity(true)];
      }
      if !IsNumber(Field(obj.fields, "max")) {
        obj.fields := obj.fields["max" := Infinity(false)];
      }
      r := Range(Field(obj.fields, "min"), Field(obj.fields, "max"));
    }
  }

  /** The object a range stands for. */
  function RangeFields(r: Range): map<string, Value> {
    map["min" := r.min, "max" := r.max]
  }

  /** Normalising is idempotent: the returned range, and the mutated object,
      normalise to the same range again. */
  lemma NormalizedIdempotent(m: map<string, Value>)
    ensures Normalized(RangeFields(Normalized(m))) == Normalized(m)
    ensures !IsNumberClass(m) ==> Normalized(Bounded(m)) == Normalized(m)
  {
    var rf := RangeFields(Normalized(m));
    assert Field(rf, "class") == Undefined;
    assert Field(rf, "min") == Normalized(m).min;
    assert Field(rf, "max") == Normalized(m).max;
  }

  // ---------------------------------------------------------------------------
  // match

  /** A value in a `match` map: a plain value, or a function (represented
      by what calling it returns). */
  datatype Entry = Plain(v: Value) | Thunk(result: Value)

  /** The string key `val in map` and `map[val]` use; a symbol is never a
      key of a map written as an object literal. */
  function PropertyKey(val: Value): Option<string> {
    if val.Sentinel? then None else Stringify(val)
  }

  /** `match(val, {autoInvoke})(map)` */
  function Match(val: Value, autoInvoke: bool, m: map<string, Entry>): Entry {
    var k := PropertyKey(val);
    var found := if k.Some? && k.value in m then m[k.value]
                 else if "default" in m then m["default"] else Plain(Undefined);
    if autoInvoke && found.Thunk? then Plain(found.result) else found
  }

  /** A key present in the map selects its entry; otherwise the `default`
      entry is taken. With autoInvoke a function entry is called, without
      it the function itself is returned. */
  lemma MatchSelects(val: Value, autoInvoke: bool, m: map<string, Entry>, key: string)
    requires PropertyKey(val) == Some(key)
    ensures key in m && m[key].Plain? ==> Match(val, autoInvoke, m) == m[key]
    ensures key in m && m[key].Thunk? ==>
      Match(val, autoInvoke, m) == if autoInvoke then Plain(m[key].result) else m[key]
    ensures key !in m && "default" in m && m["default"].Plain? ==> Match(val, autoInvoke, m) == m["default"]
    ensures key !in m && "default" in m && m["default"].Thunk? ==>
      Match(val, autoInvoke, m) == if autoInvoke then Plain(m["default"].result) else m["default"]
    ensures key !in m && "default" !in m ==> Match(val, autoInvoke, m) == Plain(Undefined)
  {
  }

  /** Keys compare as strings: a number and its decimal text find the same
      entry. */
  lemma MatchNumberAsString(n: int, autoInvoke: bool, m: map<string, Entry>)
    ensures Match(Num(n), autoInvoke, m) == Match(Str(IntToDecimal(n)), autoInvoke, m)
  {
  }

  /** The object maps of the library's own examples. */
  function NumberWords(): map<string, Entry> {
    map["1" := Plain(Str("one")), "2" := Plain(Str("two")), "40" := Plain(Str("forty")),
        "50" := Plain(Str("fifty")), "default" := Plain(Str("default"))]
  }

  function NumberWordThunks(): map<string, Entry> {
    map["1" := Thunk(Str("one")), "2" := Thunk(Str("two")), "40" := Thunk(Str("forty")),
        "50" := Thunk(Str("fifty")), "default" := Thunk(Str("default"))]
  }

  lemma MatchExamples()
    ensures Match(Num(40), true, NumberWords()) == Plain(Str("forty"))
    ensures Match(Str("50"), true, NumberWords()) == Plain(Str("fifty"))
    ensures Match(Num(42), true, NumberWords()) == Plain(Str("default"))
    ensures Match(Num(40), true, NumberWordThunks()) == Plain(Str("forty"))
    ensures Match(Str("50"), true, NumberWordThunks()) == Plain(Str("fifty"))
    ensures Match(Num(40), false, NumberWordThunks()) == Thunk(Str("forty"))
    ensures Match(Num(42), true, NumberWordThunks()) == Plain(Str("default"))
    ensures Match(Num(42), false, NumberWordThunks()) == Thunk(Str("default"))
  {
    assert IntToDecimal(40) == "40" by {
      assert NatToDecimal(4) == "4";
    }
    assert IntToDecimal(42) == "42" by {
      assert NatToDecimal(4) == "4";
    }
  }

  // ---------------------------------------------------------------------------
  // repeat

  /** `s` written `n` times. */
  function Repeated(s: string, n: nat): string {
    if n == 0 then "" else Repeated(s, n - 1) + s
  }

  /** The repetition has `n * |s|` characters. */
  lemma {:induction false} RepeatedLength(s: string, n: nat)
    ensures |Repeated(s, n)| == n * |s|
  {
    if n > 0 {
      RepeatedLength(s, n - 1);
    }
  }

  /** Repeating `a + b` times is repeating `a` times, then `b` times. */
  lemma {:induction false} RepeatedAdd(s: string, a: nat, b: nat)
    ensures Repeated(s, a + b) == Repeated(s, a) + Repeated(s, b)
    decreases b
  {
    if b > 0 {
      RepeatedAdd(s, a, b - 1);
    }
  }

  /** The piece `repeat` concatenates, as written: `if (!str) { str = this }`
      takes the receiver for any falsy `str`, the empty string included. */
  function RepeatPieceAsWritten(str: Value, receiver: Value): (r: Value)
    ensures str.Undefined? || Truthy(str) ==> r == RepeatPiece(str, receiver)
    ensures str == Str("") || str == Num(0) || str.Null? ==> r == receiver
  {
    if !Truthy(str) then receiver else str
  }

  /** The piece as evidently intended: the receiver stands in only when no
      string was passed (the `'ab'::repeat(3)` calling form). */
  function RepeatPiece(str: Value, receiver: Value): (r: Value)
    ensures str.Str? ==> r == str
  {
    if str.Undefined? then receiver else str
  }

  /** As written, `repeat(2, '')` called without a receiver (`this` is
      undefined in module code) gives "undefinedundefined", not "". */
  lemma RepeatEmptyStringAsWritten()
    ensures Stringify(RepeatPieceAsWritten(Str(""), Undefined)) == Some("undefined")
    ensures Repeated("undefined", 2) == "undefinedundefined"
    ensures RepeatPiece(Str(""), Undefined) == Str("")
  {
  }

  /** `repeat(count, str)` with `this` bound to `receiver`, as written: the
      piece (`str`, or the receiver when `str` is falsy) is appended `count`
      times; converting a symbol to a string throws, but only once the loop
      runs. */
  method Repeat(count: int, str: Value, receiver: Value) returns (r: Result<string>)
    ensures count <= 0 ==> r == Ok("")
    ensures count > 0 ==> r == match Stringify(RepeatPieceAsWritten(str, receiver))
                               case None => Err(SymbolToString)
                               case Some(p) => Ok(Repeated(p, count))
  {
    var text := Stringify(RepeatPieceAsWritten(str, receiver));
    var result := "";
    var i := 0;
    while i < count
      invariant 0 <= i <= if count > 0 then count else 0
      invariant text.Some? ==> result == Repeated(text.value, i)
      invariant i > 0 ==> text.Some?
      invariant i == 0 ==> result == ""
    {
      if text.None? {
        return Err(SymbolToString);
      }
      result := result + text.value;
      i := i + 1;
    }
    r := Ok(result);
  }

  /** For a string argument the result is that string `count` times: its
      length is `count * |s|`, and it is `s` followed by `count - 1` more
      copies. */
  lemma RepeatString(count: nat, s: string, receiver: Value)
    ensures Stringify(RepeatPiece(Str(s), receiver)) == Some(s)
    ensures |Repeated(s, count)| == count * |s|
    ensures count > 0 ==> Repeated(s, count) == s + Repeated(s, count - 1)
  {
    RepeatedLength(s, count);
    if count > 0 {
      RepeatedAdd(s, 1, count - 1);
      assert Repeated(s, 1) == s;
    }
  }
}

=== FILE: pathname.dfy ===
/**
  The two name rules of the tracker: how `p` and `e` split a dotted path
  (`/^(.+?)(\??\.)(.+)$/`) and how the `@event()` decorator turns a field
  name ending in `Event` into an event name (`/^(\w+)Event$/`).
 */
module PathName {
  import opened Values

  /** `.` follows the link strictly, `?.` loosely. */
  datatype Separator = Dot | OptionalDot

  /** A path name cut at its first separator. */
  datatype PathSplit = PathSplit(head: string, sep: Separator, tail: string) {
    predicate Loose() {
      sep == OptionalDot
    }
  }

  function SepText(sep: Separator): string {
    if sep == Dot then "." else "?."
  }

  function Join(p: PathSplit): string {
    p.head + SepText(p.sep) + p.tail
  }

  /** The characters a regular-expression `.` does not match. */
  predicate IsLineTerminator(c: char) {
    c == '\n' || c == '\r' || c == '\U{2028}' || c == '\U{2029}'
  }

  predicate NoLineTerminator(s: string) {
    forall i :: 0 <= i < |s| ==> !IsLineTerminator(s[i])
  }

  /** No line terminator at positions `lo` to `hi - 1` of `s`. */
  predicate NoLineTerminatorIn(s: string, lo: nat, hi: nat)
    requires lo <= hi <= |s|
  {
    forall j :: lo <= j < hi ==> !IsLineTerminator(s[j])
  }

  /** The regular-expression search with a head of `i` characters or more:
      the lazy head grows one character at a time (stopping at a line
      terminator), and at each length `?.` is tried before `.`. */
  function SplitFrom(s: string, i: nat): Option<PathSplit>
    requires 1 <= i
    decreases |s| - i
  {
    if i >= |s| || IsLineTerminator(s[i - 1]) then None
    else if i + 2 < |s| && s[i] == '?' && s[i + 1] == '.' && NoLineTerminatorIn(s, i + 2, |s|) then
      Some(PathSplit(s[..i], OptionalDot, s[i + 2..]))
    else if i + 1 < |s| && s[i] == '.' && NoLineTerminatorIn(s, i + 1, |s|) then
      Some(PathSplit(s[..i], Dot, s[i + 1..]))
    else SplitFrom(s, i + 1)
  }

  /** `name.match(/^(.+?)(\??\.)(.+)$/)`: `None` when the name does not
      match and is looked up as it is. */
  function SplitPath(name: string): Option<PathSplit> {
    SplitFrom(name, 1)
  }

  /** What a match looks like: non-empty head and tail without line
      terminators, no `.` in the head after its first character, and a head
      that does not end in `?` when the separator is a plain dot (that `?`
      would have been part of the separator). */
  predicate WellFormed(p: PathSplit) {
    && |p.head| >= 1 && |p.tail| >= 1
    && NoLineTerminator(p.head) && NoLineTerminator(p.tail)
    && (forall j :: 1 <= j < |p.head| ==> p.head[j] != '.')
    && (p.sep == Dot && |p.head| >= 2 ==> p.head[|p.head| - 1] != '?')
  }

  /** Where a match found from `i` on cuts the name, and what it checked. */
  lemma {:induction false} SplitFromShape(s: string, i: nat)
    requires 1 <= i
    ensures SplitFrom(s, i).Some? ==>
      var p := SplitFrom(s, i).value;
      var k := |p.head|;
      && i <= k && k + |SepText(p.sep)| + |p.tail| == |s|
      && p.head == s[..k] && p.tail == s[k + |SepText(p.sep)|..]
      && SepText(p.sep) == s[k..k + |SepText(p.sep)|]
      && |p.tail| >= 1
      && NoLineTerminatorIn(s, i - 1, k)
      && NoLineTerminatorIn(s, k + |SepText(p.sep)|, |s|)
    decreases |s| - i
  {
    if i >= |s| || IsLineTerminator(s[i - 1]) {
    } else if i + 2 < |s| && s[i] == '?' && s[i + 1] == '.' && NoLineTerminatorIn(s, i + 2, |s|) {
    } else if i + 1 < |s| && s[i] == '.' && NoLineTerminatorIn(s, i + 1, |s|) {
    } else {
      SplitFromShape(s, i + 1);
    }
  }

  /** A match found from `i` on checked every position from `i - 1` on for
      line terminators. */
  lemma SplitFromChecked(s: string, i: nat)
    requires 1 <= i && SplitFrom(s, i).Some?
    ensures i < |s| && NoLineTerminatorIn(s, i - 1, |s|)
  {
    SplitFromShape(s, i);
    var p := SplitFrom(s, i).value;
    var k := |p.head|;
    var t := k + |SepText(p.sep)|;
    forall j | i - 1 <= j < |s| ensures !IsLineTerminator(s[j]) {
      if k <= j < t {
        assert s[j] == SepText(p.sep)[j - k];
      }
    }
  }

  /** A match found from `i` on has no `.` between `i` and the separator. */
  lemma {:induction false} SplitFromNoDot(s: string, i: nat)
    requires 1 <= i
    ensures SplitFrom(s, i).Some? ==>
      var k := |SplitFrom(s, i).value.head|;
      k <= |s| && forall j :: i <= j < k ==> s[j] != '.'
    decreases |s| - i
  {
    SplitFromShape(s, i);
    if i >= |s| || IsLineTerminator(s[i - 1]) {
    } else if i + 2 < |s| && s[i] == '?' && s[i + 1] == '.' && NoLineTerminatorIn(s, i + 2, |s|) {
    } else if i + 1 < |s| && s[i] == '.' && NoLineTerminatorIn(s, i + 1, |s|) {
    } else if SplitFrom(s, i + 1).Some? {
      SplitFromNoDot(s, i + 1);
      SplitFromChecked(s, i + 1);
      assert NoLineTerminatorIn(s, i + 1, |s|);
    }
  }

  /** A plain-dot separator found from `i` on is not preceded by `?` at `i`
      or later: that `?` would have begun the separator. */
  lemma {:induction false} SplitFromNoQuestion(s: string, i: nat)
    requires 1 <= i
    ensures SplitFrom(s, i).Some? ==>
      var p := SplitFrom(s, i).value;
      var k := |p.head|;
      p.sep == Dot && k > i ==> k <= |s| && s[k - 1] != '?'
    decreases |s| - i
  {
    SplitFromShape(s, i);
    if i >= |s| || IsLineTerminator(s[i - 1]) {
    } else if i + 2 < |s| && s[i] == '?' && s[i + 1] == '.' && NoLineTerminatorIn(s, i + 2, |s|) {
    } else if i + 1 < |s| && s[i] == '.' && NoLineTerminatorIn(s, i + 1, |s|) {
    } else if SplitFrom(s, i + 1).Some? {
      SplitFromNoQuestion(s, i + 1);
      SplitFromShape(s, i + 1);
      var p := SplitFrom(s, i + 1).value;
      var k := |p.head|;
      if p.sep == Dot && k == i + 1 {
        SplitFromChecked(s, i + 1);
        assert s[k..k + 1] == SepText(Dot);
        assert NoLineTerminatorIn(s, i + 2, |s|);
      }
    }
  }

  /** A match found from `i` on has no `.` between `i` and the separator, and
      a plain-dot separator is not preceded by `?` there. */
  lemma SplitFromLeftmost(s: string, i: nat)
    requires 1 <= i
    ensures SplitFrom(s, i).Some? ==>
      var p := SplitFrom(s, i).value;
      var k := |p.head|;
      && k <= |s|
      && (forall j :: i <= j < k ==> s[j] != '.')
      && (p.sep == Dot && k > i ==> s[k - 1] != '?')
  {
    SplitFromNoDot(s, i);
    SplitFromNoQuestion(s, i);
  }

  lemma {:induction false} SplitFromNone(s: string, i: nat)
    requires 1 <= i <= |s| && NoLineTerminatorIn(s, i - 1, |s|)
    requires SplitFrom(s, i).None?
    ensures forall j :: i <= j < |s| - 1 ==> s[j] != '.'
    decreases |s| - i
  {
    if i < |s| {
      SplitFromNone(s, i + 1);
    }
  }

  /** A match of the path pattern cuts the name at its first separator. */
  lemma SplitSound(name: string)
    ensures SplitPath(name).Some? ==>
      WellFormed(SplitPath(name).value) && Join(SplitPath(name).value) == name
  {
    SplitFromShape(name, 1);
    SplitFromLeftmost(name, 1);
    if SplitPath(name).Some? {
      var p := SplitPath(name).value;
      var k := |p.head|;
      var t := k + |SepText(p.sep)|;
      assert name == name[..k] + name[k..t] + name[t..];
      forall j | 0 <= j < k ensures p.head[j] == name[j] && !IsLineTerminator(p.head[j]) {
      }
      forall j | 0 <= j < |p.tail| ensures p.tail[j] == name[t + j] && !IsLineTerminator(p.tail[j]) {
      }
    }
  }

  /** A name is left unsplit exactly when it has no `.` after its first
      character and before its last one, or holds a line terminator. */
  lemma SplitNone(name: string)
    ensures SplitPath(name).None? <==>
      !(NoLineTerminator(name) && exists j :: 1 <= j < |name| - 1 && name[j] == '.')
  {
    if SplitPath(name).Some? {
      SplitFromShape(name, 1);
      var p := SplitPath(name).value;
      var k := |p.head|;
      var t := k + |SepText(p.sep)|;
      var d := t - 1;
      assert name[d] == SepText(p.sep)[d - k];
      forall j | 0 <= j < |name| ensures !IsLineTerminator(name[j]) {
        if k <= j < t {
          assert name[j] == SepText(p.sep)[j - k];
        }
      }
    } else if NoLineTerminator(name) && |name| >= 1 {
      SplitFromNone(name, 1);
    }
  }

  lemma {:induction false} JoinSplitFrom(p: PathSplit, i: nat)
    requires WellFormed(p) && 1 <= i <= |p.head|
    ensures SplitFrom(Join(p), i) == Some(p)
    decreases |p.head| - i
  {
    var s := Join(p);
    var k := |p.head|;
    var t := k + |SepText(p.sep)|;
    assert s[..k] == p.head && s[t..] == p.tail;
    assert s[i - 1] == p.head[i - 1];
    forall j | t <= j < |s| ensures !IsLineTerminator(s[j]) {
      assert s[j] == p.tail[j - t];
    }
    if p.sep == OptionalDot {
      assert s[k] == '?' && s[k + 1] == '.';
    } else {
      assert s[k] == '.';
    }
    if i < k {
      assert s[i] == p.head[i];
      if i + 1 < k {
        assert s[i + 1] == p.head[i + 1];
      }
      JoinSplitFrom(p, i + 1);
    }
  }

  /** Splitting a joined well-formed path gives the same head, separator and
      tail back. */
  lemma JoinSplit(p: PathSplit)
    requires WellFormed(p)
    ensures SplitPath(Join(p)) == Some(p)
  {
    JoinSplitFrom(p, 1);
  }

  /** The head of a split never splits again: `p` and `e` look it up as a
      plain name. */
  lemma HeadIsPlain(name: string)
    ensures SplitPath(name).Some? ==> SplitPath(SplitPath(name).value.head).None?
  {
    if SplitPath(name).Some? {
      SplitSound(name);
      var h := SplitPath(name).value.head;
      SplitNone(h);
    }
  }

  /** The property tests' paths. */
  lemma SplitExamples()
    ensures SplitPath("carriage.x") == Some(PathSplit("carriage", Dot, "x"))
    ensures SplitPath("carriage?.x") == Some(PathSplit("carriage", OptionalDot, "x"))
    ensures SplitPath("a.b.c") == Some(PathSplit("a", Dot, "b.c"))
    ensures SplitPath("x").None? && SplitPath(".x").None? && SplitPath("x.").None?
  {
    JoinSplit(PathSplit("carriage", Dot, "x"));
    assert Join(PathSplit("carriage", Dot, "x")) == "carriage.x";
    JoinSplit(PathSplit("carriage", OptionalDot, "x"));
    assert Join(PathSplit("carriage", OptionalDot, "x")) == "carriage?.x";
    JoinSplit(PathSplit("a", Dot, "b.c"));
    assert Join(PathSplit("a", Dot, "b.c")) == "a.b.c";
    SplitNone("x");
    SplitNone(".x");
    SplitNone("x.");
  }

  // ---------------------------------------------------------------------------
  // The @event() decorator's name rule

  /** `\w`: ASCII letters, digits and underscore. */
  predicate IsWordChar(c: char) {
    ('a' <= c <= 'z') || ('A' <= c <= 'Z') || ('0' <= c <= '9') || c == '_'
  }

  predicate IsWord(s: string) {
    |s| >= 1 && forall i :: 0 <= i < |s| ==> IsWordChar(s[i])
  }

  /** `key.match(/^(\w+)Event$/)[1]`, or the decorator's assertion failure. */
  function EventKeyName(key: string): (r: Result<string>)
    ensures r.Ok? <==> |key| > 5 && key[|key| - 5..] == "Event" && IsWord(key[..|key| - 5])
    ensures r.Ok? ==> key == r.value + "Event"
    ensures r.Err? ==> r.error == NotAnEventKey(key)
  {
    if |key| > 5 && key[|key| - 5..] == "Event" && IsWord(key[..|key| - 5]) then
      Ok(key[..|key| - 5])
    else Err(NotAnEventKey(key))
  }

  /** Every word is the event name of the field `word + "Event"`. */
  lemma EventKeyRoundTrip(name: string)
    requires IsWord(name)
    ensures EventKeyName(name + "Event") == Ok(name)
  {
    var key := name + "Event";
    assert key[..|key| - 5] == name;
    assert key[|key| - 5..] == "Event";
  }
}

=== FILE: pipeline.dfy ===
/**
  The refinements every property stream passes its values through, in the
  order `newProperty` chains them: `filter(isValid)`, `map(transform)`,
  `distinctUntilChanged(isEqual)` and, for a property that allows cache
  invalidation, a filter that drops the private invalidation marker.
  A subscription's state is the last value that passed the distinctness
  stage.
 */
module Pipeline {
  import opened Values
  import Misc

  /** `isValid`: a predicate, or an array of the allowed values (which
      `newProperty` replaces by an inclusion test). */
  datatype Validator = Predicate(accepts: Value -> bool) | OneOf(allowed: seq<Value>)

  /** `isValid` as evidently meant: the predicate, or membership in the
      array. */
  predicate Accepts(valid: Validator, v: Value) {
    match valid
    case Predicate(accepts) => accepts(v)
    case OneOf(allowed) => Misc.ArrayContainsValue(allowed, v)
  }

  /** `isValid` as `filter` calls it: with the value and the number of values
      that filter has seen before it. The predicates of this model ignore the
      count, but the `includes` bound to an array takes it as `fromIndex` and
      searches the array only from that position on. */
  predicate AcceptsAt(valid: Validator, v: Value, index: nat) {
    match valid
    case Predicate(accepts) => accepts(v)
    case OneOf(allowed) => index < |allowed| && Misc.ArrayContainsValue(allowed[index..], v)
  }

  /** A search from the start is plain membership, a later search finds only
      members, and once the filter has seen as many values as the array
      holds, nothing passes any more. */
  lemma AcceptsAtBounds(valid: Validator, v: Value, index: nat)
    ensures AcceptsAt(valid, v, 0) == Accepts(valid, v)
    ensures AcceptsAt(valid, v, index) ==> Accepts(valid, v)
    ensures valid.OneOf? && index >= |valid.allowed| ==> !AcceptsAt(valid, v, index)
  {
    if valid.OneOf? {
      assert valid.allowed[0..] == valid.allowed;
      if AcceptsAt(valid, v, index) {
        var j :| 0 <= j < |valid.allowed[index..]| && valid.allowed[index..][j] == v;
        assert valid.allowed[index + j] == v;
      }
    }
  }

  /** The options of `newProperty` that shape its stream. */
  datatype Refinement = Refinement(
    isValid: Validator,
    transform: Value -> Value,
    isEqual: (Value, Value) -> bool,
    invalidation: bool)

  /** The defaults: every value is valid, the transform is the identity and
      equality is `===`. */
  function DefaultRefinement(invalidation: bool): Refinement {
    Refinement(Predicate(v => true), v => v, (a, b) => a == b, invalidation)
  }

  /** What one pushed value does to a subscription: its new last value and
      what it delivers to the subscriber. */
  datatype Delivery = Delivery(last: Option<Value>, out: seq<Value>)

  /** A value that passed `isValid`, through `transform`,
      `distinctUntilChanged(isEqual)` and, with cache invalidation, the
      filter that drops the marker. */
  function Refined(rf: Refinement, last: Option<Value>, v: Value): (d: Delivery)
    ensures |d.out| <= 1
    ensures d.out != [] ==> d.out == [rf.transform(v)] && d.last == Some(d.out[0])
    ensures ((last.None? || !rf.isEqual(last.value, rf.transform(v)))
             && !(rf.invalidation && rf.transform(v) == Sentinel))
      ==> d == Delivery(Some(rf.transform(v)), [rf.transform(v)])
  {
    var t := rf.transform(v);
    if last.Some? && rf.isEqual(last.value, t) then Delivery(last, [])
    else if rf.invalidation && t == Sentinel then Delivery(Some(t), [])
    else Delivery(Some(t), [t])
  }

  /** One value through the refinements as `newProperty` chains them, the
      `index`-th value this subscription's `filter` sees. The invalidation
      marker is an ordinary value here: it has to pass `isValid` and
      `transform`, and only a marker that comes out of them unchanged and
      differs from the last value clears the cache. */
  function StepAsWritten(rf: Refinement, last: Option<Value>, index: nat, v: Value): (d: Delivery)
    ensures |d.out| <= 1
    ensures d.out != [] ==> d.last == Some(d.out[0]) && AcceptsAt(rf.isValid, v, index)
  {
    if !AcceptsAt(rf.isValid, v, index) then Delivery(last, [])
    else Refined(rf, last, v)
  }

  /** One value through the refinements as evidently intended: the
      invalidation marker is taken out before `isValid` and `transform` and
      clears the last value, so that the next value is delivered whatever it
      is; an array `isValid` is membership. Other values go through as in
      `StepAsWritten` for the first value a subscription sees. */
  function Step(rf: Refinement, last: Option<Value>, v: Value): (d: Delivery)
    ensures |d.out| <= 1
    ensures d.out != [] ==> d.last == Some(d.out[0])
    ensures rf.invalidation ==> Sentinel !in d.out
    ensures rf.invalidation && v == Sentinel ==> d == Delivery(None, [])
    ensures !(rf.invalidation && v == Sentinel) && !Accepts(rf.isValid, v) ==> d == Delivery(last, [])
    ensures d.out != [] && last.Some? ==> !rf.isEqual(last.value, d.out[0])
    ensures !rf.invalidation && d.out == [] ==> d.last == last
    ensures (!(rf.invalidation && v == Sentinel) && Accepts(rf.isValid, v)
             && (last.None? || !rf.isEqual(last.value, rf.transform(v)))
             && !(rf.invalidation && rf.transform(v) == Sentinel))
      ==> d == Delivery(Some(rf.transform(v)), [rf.transform(v)])
  {
    if rf.invalidation && v == Sentinel then Delivery(None, [])
    else if !Accepts(rf.isValid, v) then Delivery(last, [])
    else Refined(rf, last, v)
  }

  /** Any value but the marker goes through the corrected step exactly as
      through the written one when it is the first value the filter sees,
      and, with a predicate `isValid`, whatever the filter has seen. */
  lemma StepAgreesOnValues(rf: Refinement, last: Option<Value>, index: nat, v: Value)
    requires !(rf.invalidation && v == Sentinel)
    ensures Step(rf, last, v) == StepAsWritten(rf, last, 0, v)
    ensures rf.isValid.Predicate? ==> Step(rf, last, v) == StepAsWritten(rf, last, index, v)
  {
    AcceptsAtBounds(rf.isValid, v, 0);
  }

  /** A sequence of pushed values through one subscription. */
  function Run(rf: Refinement, last: Option<Value>, vs: seq<Value>): Delivery
    decreases |vs|
  {
    if vs == [] then Delivery(last, [])
    else
      var d := Step(rf, last, vs[0]);
      var rest := Run(rf, d.last, vs[1..]);
      Delivery(rest.last, d.out + rest.out)
  }

  /** A sequence of pushed values through one subscription as written,
      starting at the `index`-th value its `filter` sees. */
  function RunAsWritten(rf: Refinement, last: Option<Value>, index: nat, vs: seq<Value>): Delivery
    decreases |vs|
  {
    if vs == [] then Delivery(last, [])
    else
      var d := StepAsWritten(rf, last, index, vs[0]);
      var rest := RunAsWritten(rf, d.last, index + 1, vs[1..]);
      Delivery(rest.last, d.out + rest.out)
  }

  /** Each pushed value delivers at most one value. */
  lemma {:induction false} RunBound(rf: Refinement, last: Option<Value>, vs: seq<Value>)
    ensures |Run(rf, last, vs).out| <= |vs|
    decreases |vs|
  {
    if vs != [] {
      RunBound(rf, Step(rf, last, vs[0]).last, vs[1..]);
    }
  }

  /** Pushing values one batch after another is pushing them all at once. */
  lemma {:induction false} RunAppend(rf: Refinement, last: Option<Value>, a: seq<Value>, b: seq<Value>)
    ensures Run(rf, last, a + b) ==
      Delivery(Run(rf, Run(rf, last, a).last, b).last,
               Run(rf, last, a).out + Run(rf, Run(rf, last, a).last, b).out)
    decreases |a|
  {
    if a == [] {
      assert a + b == b;
    } else {
      var s := Step(rf, last, a[0]);
      assert (a + b)[0] == a[0] && (a + b)[1..] == a[1..] + b;
      RunCons(rf, last, a);
      RunCons(rf, last, a + b);
      RunAppend(rf, s.last, a[1..], b);
      var r1 := Run(rf, s.last, a[1..]);
      var r2 := Run(rf, r1.last, b);
      assert s.out + (r1.out + r2.out) == (s.out + r1.out) + r2.out;
    }
  }

  /** Nothing reaches a subscriber that did not pass `isValid` and come out
      of `transform`. */
  lemma {:induction false} RunSound(rf: Refinement, last: Option<Value>, vs: seq<Value>)
    ensures forall o :: o in Run(rf, last, vs).out ==>
      exists v :: v in vs && Accepts(rf.isValid, v) && rf.transform(v) == o
    decreases |vs|
  {
    if vs != [] {
      RunSound(rf, Step(rf, last, vs[0]).last, vs[1..]);
      forall o | o in Run(rf, last, vs).out
        ensures exists v :: v in vs && Accepts(rf.isValid, v) && rf.transform(v) == o
      {
        if o in Step(rf, last, vs[0]).out {
          assert vs[0] in vs;
        } else {
          var v :| v in vs[1..] && Accepts(rf.isValid, v) && rf.transform(v) == o;
          assert v in vs;
        }
      }
    }
  }

  /** The invalidation marker never reaches a subscriber. */
  lemma {:induction false} RunNoMarker(rf: Refinement, last: Option<Value>, vs: seq<Value>)
    requires rf.invalidation
    ensures Sentinel !in Run(rf, last, vs).out
    decreases |vs|
  {
    if vs != [] {
      RunNoMarker(rf, Step(rf, last, vs[0]).last, vs[1..]);
    }
  }

  /** Without cache invalidation, the last value is the last one delivered,
      the first delivery differs from the last value before it, and no two
      consecutive deliveries are equal (`distinctUntilChanged`). */
  lemma RunDistinct(rf: Refinement, last: Option<Value>, vs: seq<Value>)
    requires !rf.invalidation
    ensures var d := Run(rf, last, vs);
      && (d.out == [] ==> d.last == last)
      && (d.out != [] ==> d.last == Some(d.out[|d.out| - 1]))
      && (d.out != [] && last.Some? ==> !rf.isEqual(last.value, d.out[0]))
      && (forall k :: 0 <= k < |d.out| - 1 ==> !rf.isEqual(d.out[k], d.out[k + 1]))
  {
    RunLast(rf, last, vs);
    RunFirstDiffers(rf, last, vs);
    RunNoRepeat(rf, last, vs);
  }

  /** The first step of a run, and the run of the rest after it. */
  lemma RunCons(rf: Refinement, last: Option<Value>, vs: seq<Value>)
    requires vs != []
    ensures var s := Step(rf, last, vs[0]);
      var rest := Run(rf, s.last, vs[1..]);
      Run(rf, last, vs) == Delivery(rest.last, s.out + rest.out)
  {
  }

  lemma {:induction false} RunLast(rf: Refinement, last: Option<Value>, vs: seq<Value>)
    requires !rf.invalidation
    ensures var d := Run(rf, last, vs);
      && (d.out == [] ==> d.last == last)
      && (d.out != [] ==> d.last == Some(d.out[|d.out| - 1]))
    decreases |vs|
  {
    if vs != [] {
      var s := Step(rf, last, vs[0]);
      RunCons(rf, last, vs);
      RunLast(rf, s.last, vs[1..]);
    }
  }

  lemma {:induction false} RunFirstDiffers(rf: Refinement, last: Option<Value>, vs: seq<Value>)
    requires !rf.invalidation
    ensures var d := Run(rf, last, vs);
      d.out != [] && last.Some? ==> !rf.isEqual(last.value, d.out[0])
    decreases |vs|
  {
    if vs != [] {
      var s := Step(rf, last, vs[0]);
      RunCons(rf, last, vs);
      if s.out == [] {
        RunFirstDiffers(rf, s.last, vs[1..]);
      }
    }
  }

  lemma {:induction false} RunNoRepeat(rf: Refinement, last: Option<Value>, vs: seq<Value>)
    requires !rf.invalidation
    ensures var d := Run(rf, last, vs);
      forall k :: 0 <= k < |d.out| - 1 ==> !rf.isEqual(d.out[k], d.out[k + 1])
    decreases |vs|
  {
    if vs != [] {
      var s := Step(rf, last, vs[0]);
      var rest := Run(rf, s.last, vs[1..]);
      var d := Run(rf, last, vs);
      RunCons(rf, last, vs);
      RunNoRepeat(rf, s.last, vs[1..]);
      if s.out != [] {
        RunFirstDiffers(rf, s.last, vs[1..]);
        forall k | 0 <= k < |d.out| - 1 ensures !rf.isEqual(d.out[k], d.out[k + 1]) {
          if k > 0 {
            assert d.out[k] == rest.out[k - 1] && d.out[k + 1] == rest.out[k];
          }
        }
      }
    }
  }

  /** Pushing the same value twice delivers nothing the second time, when
      `isEqual` holds between a value and itself. */
  lemma PushTwice(rf: Refinement, last: Option<Value>, v: Value)
    requires !(rf.invalidation && v == Sentinel)
    requires rf.isEqual(rf.transform(v), rf.transform(v))
    ensures Step(rf, Step(rf, last, v).last, v).out == []
  {
  }

  /** After an invalidation, a valid value is delivered again even when it
      equals the last one; pushing it once more is suppressed as before. */
  lemma InvalidateRedelivers(rf: Refinement, last: Option<Value>, v: Value)
    requires rf.invalidation && v != Sentinel
    requires Accepts(rf.isValid, v) && rf.transform(v) != Sentinel
    requires rf.isEqual(rf.transform(v), rf.transform(v))
    ensures var d1 := Step(rf, last, v);
      var d2 := Step(rf, d1.last, Sentinel);
      var d3 := Step(rf, d2.last, v);
      && d2.out == [] && d3.out == [rf.transform(v)]
      && Step(rf, d3.last, v).out == []
  {
  }

  /** Refinements under which the written pipeline lets the marker through
      like the corrected one: a predicate `isValid` that accepts it, a
      `transform` that keeps it, and an `isEqual` that never relates it to
      another value. */
  ghost predicate MarkerTransparent(rf: Refinement) {
    && rf.isValid.Predicate? && Accepts(rf.isValid, Sentinel) && rf.transform(Sentinel) == Sentinel
    && forall x :: x != Sentinel ==> !rf.isEqual(x, Sentinel) && !rf.isEqual(Sentinel, x)
  }

  /** The last values of the corrected and the written subscription after
      the same pushes: equal, or the corrected one cleared where the written
      one holds the marker. */
  predicate SameCache(rf: Refinement, fixed: Option<Value>, written: Option<Value>) {
    fixed == written || (rf.invalidation && fixed.None? && written == Some(Sentinel))
  }

  /** As written, invalidation works when the marker passes `isValid`, comes
      out of `transform` unchanged and is unequal to any other value (as
      with the default refinements), whatever the filter has seen. */
  lemma InvalidateAsWrittenRedelivers(rf: Refinement, last: Option<Value>, index: nat, v: Value)
    requires rf.invalidation && MarkerTransparent(rf) && v != Sentinel
    requires Accepts(rf.isValid, v) && rf.transform(v) != Sentinel
    ensures var d1 := StepAsWritten(rf, last, index, v);
      var d2 := StepAsWritten(rf, d1.last, index + 1, Sentinel);
      d2.out == [] && StepAsWritten(rf, d2.last, index + 2, v).out == [rf.transform(v)]
  {
  }

  /** Under those conditions one written step and one corrected step deliver
      the same and keep the same cache, up to the cleared marker. */
  lemma StepAgreesAsWritten(rf: Refinement, fixed: Option<Value>, written: Option<Value>, index: nat, v: Value)
    requires MarkerTransparent(rf) && SameCache(rf, fixed, written)
    ensures Step(rf, fixed, v).out == StepAsWritten(rf, written, index, v).out
    ensures SameCache(rf, Step(rf, fixed, v).last, StepAsWritten(rf, written, index, v).last)
  {
    if !(rf.invalidation && v == Sentinel) && Accepts(rf.isValid, v) && fixed != written {
      assert !rf.isEqual(Sentinel, rf.transform(v)) || rf.transform(v) == Sentinel;
    }
  }

  /** So, for such refinements (the defaults among them), the corrected
      pipeline delivers exactly what the written one delivers, on every
      sequence of pushes. */
  lemma {:induction false} RunAgreesAsWritten(rf: Refinement, last: Option<Value>, index: nat, vs: seq<Value>)
    requires MarkerTransparent(rf)
    ensures Run(rf, last, vs).out == RunAsWritten(rf, last, index, vs).out
  {
    RunAgreesFrom(rf, last, last, index, vs);
  }

  lemma {:induction false} RunAgreesFrom(rf: Refinement, fixed: Option<Value>, written: Option<Value>,
                                         index: nat, vs: seq<Value>)
    requires MarkerTransparent(rf) && SameCache(rf, fixed, written)
    ensures Run(rf, fixed, vs).out == RunAsWritten(rf, written, index, vs).out
    decreases |vs|
  {
    if vs != [] {
      StepAgreesAsWritten(rf, fixed, written, index, vs[0]);
      RunAgreesFrom(rf, Step(rf, fixed, vs[0]).last, StepAsWritten(rf, written, index, vs[0]).last,
                    index + 1, vs[1..]);
    }
  }

  /** The default refinements meet the conditions above. */
  lemma DefaultsInvalidate(invalidation: bool)
    ensures MarkerTransparent(DefaultRefinement(invalidation))
  {
  }

  /** As written, an array `isValid` filters the invalidation marker out, so
      `invalidateCache` leaves the subscription exactly as it was and a
      repeated value stays suppressed. */
  lemma InvalidateIgnoredAsWritten(allowed: seq<Value>, transform: Value -> Value,
                                   isEqual: (Value, Value) -> bool, last: Option<Value>, index: nat)
    requires Sentinel !in allowed
    ensures StepAsWritten(Refinement(OneOf(allowed), transform, isEqual, true), last, index, Sentinel)
      == Delivery(last, [])
  {
    AcceptsAtBounds(OneOf(allowed), Sentinel, index);
  }

  /** With the marker taken out first, the same property delivers the value
      again. */
  lemma InvalidateWithArrayValidator()
    ensures var rf := Refinement(OneOf([Num(0), Num(1)]), v => v, (a, b) => a == b, true);
      var d1 := Step(rf, None, Num(1));
      var d2 := Step(rf, d1.last, Sentinel);
      d1.out == [Num(1)] && Step(rf, d2.last, Num(1)).out == [Num(1)]
  {
    var rf := Refinement(OneOf([Num(0), Num(1)]), v => v, (a, b) => a == b, true);
    assert Accepts(rf.isValid, Num(1)) by {
      assert [Num(0), Num(1)][1] == Num(1);
    }
  }

  /** As written, an array `isValid` accepts nothing once its filter has seen
      as many values as the array holds: with `{isValid: [0, 1], initial: 0}`
      the replayed 0 and a pushed 1 pass, and a 0 pushed next is dropped, so
      the property keeps 1. */
  lemma ArrayValidatorExhausted()
    ensures var rf := Refinement(OneOf([Num(0), Num(1)]), v => v, (a, b) => a == b, false);
      RunAsWritten(rf, None, 0, [Num(0), Num(1), Num(0)]) == Delivery(Some(Num(1)), [Num(0), Num(1)])
  {
    var rf := Refinement(OneOf([Num(0), Num(1)]), v => v, (a, b) => a == b, false);
    var vs := [Num(0), Num(1), Num(0)];
    assert AcceptsAt(rf.isValid, Num(0), 0);
    assert AcceptsAt(rf.isValid, Num(1), 1) by {
      assert [Num(0), Num(1)][1..] == [Num(1)];
    }
    AcceptsAtBounds(rf.isValid, Num(0), 2);
    assert vs[1..][1..][1..] == [];
  }

  /** With membership, the same property takes the 0 back. */
  lemma ArrayValidatorMembership()
    ensures var rf := Refinement(OneOf([Num(0), Num(1)]), v => v, (a, b) => a == b, false);
      Run(rf, None, [Num(0), Num(1), Num(0)]) == Delivery(Some(Num(0)), [Num(0), Num(1), Num(0)])
  {
    var rf := Refinement(OneOf([Num(0), Num(1)]), v => v, (a, b) => a == b, false);
    var vs := [Num(0), Num(1), Num(0)];
    assert Accepts(rf.isValid, Num(1)) by {
      assert [Num(0), Num(1)][1] == Num(1);
    }
    assert vs[1..][1..][1..] == [];
  }
  // ---------------------------------------------------------------------------
  // The event stream derived from a property: `skip(1)` of the property stream

  /** What a subscriber to a property's derived event sees, as written: it
      joins when the subject holds `current`, then `pushes` arrive; the
      first delivery is dropped, whatever it is. */
  function SkipFirstAsWritten(rf: Refinement, current: Value, pushes: seq<Value>): seq<Value> {
    var out := Run(rf, None, [current] + pushes).out;
    if out == [] then [] else out[1..]
  }

  /** What a subscriber to a property's derived event sees when only the
      replay of the current value is dropped: the changes after joining. */
  function Changes(rf: Refinement, current: Value, pushes: seq<Value>): (r: seq<Value>)
    ensures |r| <= |pushes|
  {
    RunBound(rf, Step(rf, None, current).last, pushes);
    Run(rf, Step(rf, None, current).last, pushes).out
  }

  /** When the current value is delivered on joining, dropping the first
      delivery is dropping that replay, and both agree. */
  lemma SkipFirstAgrees(rf: Refinement, current: Value, pushes: seq<Value>)
    requires Step(rf, None, current).out != []
    ensures SkipFirstAsWritten(rf, current, pushes) == Changes(rf, current, pushes)
  {
    RunAppend(rf, None, [current], pushes);
    assert [current][1..] == [];
    var s := Step(rf, None, current);
    assert Run(rf, None, [current]) == Delivery(Run(rf, s.last, []).last, s.out + Run(rf, s.last, []).out);
  }

  /** As written, a property whose current value is not valid (a `flag`
      without an initial value, say) loses its first change: `skip(1)` drops
      it in place of the replay that never came. */
  lemma SkipFirstLosesChange()
    ensures var rf := Refinement(Predicate((v: Value) => v.Bool?), v => v, (a, b) => a == b, false);
      SkipFirstAsWritten(rf, Undefined, [Bool(true)]) == []
      && Changes(rf, Undefined, [Bool(true)]) == [Bool(true)]
  {
    var rf := Refinement(Predicate((v: Value) => v.Bool?), v => v, (a, b) => a == b, false);
    assert [Undefined] + [Bool(true)] == [Undefined, Bool(true)];
    assert [Undefined, Bool(true)][1..] == [Bool(true)];
    assert [Bool(true)][1..] == [];
  }
}

=== FILE: tracker.dfy ===
/**
  The `ValueTracker` class: an object that owns named events and named
  properties. Its tables are created lazily, on the first operation that
  needs them, from the events and properties its class declares with the
  `@event()` and `@property()` decorators.
 */
module Tracker {
  import opened Values
  import opened Pipeline
  import opened TrackerState
  import PathName

  /** The declared events, defined in order; the first failure stops. */
  function DeclareEvents(t: Tables, filter: Value -> bool, names: seq<string>): Result<Tables>
    decreases |names|
  {
    if names == [] then Ok(t)
    else
      match AddEvent(t, names[0], filter)
      case Err(e) => Err(e)
      case Ok(t1) => DeclareEvents(t1, filter, names[1..])
  }

  /** The declared properties, defined in order; the first failure stops. */
  function DeclareProperties(t: Tables, decls: seq<(string, PropertyOptions)>): Result<Tables>
    decreases |decls|
  {
    if decls == [] then Ok(t)
    else
      match AddProperty(t, decls[0].0, decls[0].1)
      case Err(e) => Err(e)
      case Ok(t1) => DeclareProperties(t1, decls[1..])
  }

  /** The tables as far as defining the declared events gets: up to, and
      without, the first definition that fails. */
  function EventsReached(t: Tables, filter: Value -> bool, names: seq<string>): Tables
    decreases |names|
  {
    if names == [] then t
    else
      match AddEvent(t, names[0], filter)
      case Err(_) => t
      case Ok(t1) => EventsReached(t1, filter, names[1..])
  }

  /** The tables as far as defining the declared properties gets. */
  function PropertiesReached(t: Tables, decls: seq<(string, PropertyOptions)>): Tables
    decreases |decls|
  {
    if decls == [] then t
    else
      match AddProperty(t, decls[0].0, decls[0].1)
      case Err(_) => t
      case Ok(t1) => PropertiesReached(t1, decls[1..])
  }

  /** The tables initialization leaves behind, whether it succeeds or not. */
  function DeclaredReached(filter: Value -> bool, names: seq<string>, decls: seq<(string, PropertyOptions)>): Tables {
    match DeclareEvents(EmptyTables(), filter, names)
    case Err(_) => EventsReached(EmptyTables(), filter, names)
    case Ok(t) => PropertiesReached(t, decls)
  }

  /** A successful initialization leaves exactly the tables it declared. */
  lemma {:induction false} ReachedDeclared(t: Tables, filter: Value -> bool, names: seq<string>,
                                           decls: seq<(string, PropertyOptions)>)
    ensures DeclareEvents(t, filter, names).Ok? ==>
      DeclareEvents(t, filter, names).value == EventsReached(t, filter, names)
    ensures DeclareProperties(t, decls).Ok? ==>
      DeclareProperties(t, decls).value == PropertiesReached(t, decls)
    decreases |names| + |decls|
  {
    if names != [] && AddEvent(t, names[0], filter).Ok? {
      ReachedDeclared(AddEvent(t, names[0], filter).value, filter, names[1..], []);
    }
    if decls != [] && AddProperty(t, decls[0].0, decls[0].1).Ok? {
      ReachedDeclared(AddProperty(t, decls[0].0, decls[0].1).value, filter, [], decls[1..]);
    }
  }

  /** Initialization: the declared events first, then the declared
      properties. */
  function Declared(filter: Value -> bool, names: seq<string>, decls: seq<(string, PropertyOptions)>): Result<Tables> {
    match DeclareEvents(EmptyTables(), filter, names)
    case Err(e) => Err(e)
    case Ok(t) => DeclareProperties(t, decls)
  }

  lemma {:induction false} DeclareEventsValid(t: Tables, filter: Value -> bool, names: seq<string>)
    requires TablesValid(t)
    ensures DeclareEvents(t, filter, names).Ok? ==> TablesValid(DeclareEvents(t, filter, names).value)
    ensures DeclareEvents(t, filter, names).Ok? ==>
      forall i :: 0 <= i < |names| ==> names[i] in DeclareEvents(t, filter, names).value.events
    decreases |names|
  {
    if names != [] && AddEvent(t, names[0], filter).Ok? {
      var t1 := AddEvent(t, names[0], filter).value;
      AddEventValid(t, names[0], filter);
      DeclareEventsValid(t1, filter, names[1..]);
      if DeclareEvents(t1, filter, names[1..]).Ok? {
        var u := DeclareEvents(t1, filter, names[1..]).value;
        DeclareEventsGrow(t1, filter, names[1..]);
        forall i | 0 <= i < |names| ensures names[i] in u.events {
          if i > 0 {
            assert names[1..][i - 1] == names[i];
          }
        }
      }
    }
  }

  /** Declaring events only adds to the tables. */
  lemma {:induction false} DeclareEventsGrow(t: Tables, filter: Value -> bool, names: seq<string>)
    ensures DeclareEvents(t, filter, names).Ok? ==>
      t.events.Keys <= DeclareEvents(t, filter, names).value.events.Keys
    decreases |names|
  {
    if names != [] && AddEvent(t, names[0], filter).Ok? {
      DeclareEventsGrow(AddEvent(t, names[0], filter).value, filter, names[1..]);
    }
  }

  lemma {:induction false} DeclarePropertiesValid(t: Tables, decls: seq<(string, PropertyOptions)>)
    requires TablesValid(t)
    ensures DeclareProperties(t, decls).Ok? ==> TablesValid(DeclareProperties(t, decls).value)
    ensures DeclareProperties(t, decls).Ok? ==>
      forall i :: 0 <= i < |decls| ==> decls[i].0 in DeclareProperties(t, decls).value.properties
    decreases |decls|
  {
    if decls != [] && AddProperty(t, decls[0].0, decls[0].1).Ok? {
      var t1 := AddProperty(t, decls[0].0, decls[0].1).value;
      AddPropertyValid(t, decls[0].0, decls[0].1);
      DeclarePropertiesValid(t1, decls[1..]);
      if DeclareProperties(t1, decls[1..]).Ok? {
        var u := DeclareProperties(t1, decls[1..]).value;
        DeclarePropertiesGrow(t1, decls[1..]);
        forall i | 0 <= i < |decls| ensures decls[i].0 in u.properties {
          if i > 0 {
            assert decls[1..][i - 1] == decls[i];
          }
        }
      }
    }
  }

  /** Declaring properties only adds to the tables. */
  lemma {:induction false} DeclarePropertiesGrow(t: Tables, decls: seq<(string, PropertyOptions)>)
    ensures DeclareProperties(t, decls).Ok? ==>
      t.properties.Keys <= DeclareProperties(t, decls).value.properties.Keys
    decreases |decls|
  {
    if decls != [] && AddProperty(t, decls[0].0, decls[0].1).Ok? {
      DeclarePropertiesGrow(AddProperty(t, decls[0].0, decls[0].1).value, decls[1..]);
    }
  }

  /** A successful initialization leaves valid tables holding every declared
      event and property. */
  lemma DeclaredValid(filter: Value -> bool, names: seq<string>, decls: seq<(string, PropertyOptions)>)
    ensures Declared(filter, names, decls).Ok? ==>
      && TablesValid(Declared(filter, names, decls).value)
      && (forall i :: 0 <= i < |decls| ==> decls[i].0 in Declared(filter, names, decls).value.properties)
  {
    EmptyTablesValid();
    DeclareEventsValid(EmptyTables(), filter, names);
    if DeclareEvents(EmptyTables(), filter, names).Ok? {
      DeclarePropertiesValid(DeclareEvents(EmptyTables(), filter, names).value, decls);
    }
  }

  /** The tables an operation works on: the existing ones, or those that
      initialization creates first (or its error). */
  function Begun(initialized: bool, t: Tables, filter: Value -> bool, names: seq<string>,
                 decls: seq<(string, PropertyOptions)>): Result<Tables>
  {
    if initialized then Ok(t) else Declared(filter, names, decls)
  }

  class ValueTracker {
    /** The decorators' declarations of the class. */
    const declaredEvents: seq<string>
    const declaredProperties: seq<(string, PropertyOptions)>
    var initialized: bool
    var filterBy: Value -> bool
    var events: map<string, EventEntry>
    var properties: map<string, PropertyEntry>
    var currentValues: map<string, Value>

    function State(): Tables
      reads this
    {
      Tables(events, properties, currentValues)
    }

    ghost predicate Valid()
      reads this
    {
      TablesValid(State()) && (!initialized ==> State() == EmptyTables())
    }

    constructor(declaredEvents: seq<string>, declaredProperties: seq<(string, PropertyOptions)>)
      ensures Valid() && !initialized && forall v :: filterBy(v)
      ensures this.declaredEvents == declaredEvents && this.declaredProperties == declaredProperties
    {
      this.declaredEvents := declaredEvents;
      this.declaredProperties := declaredProperties;
      initialized := false;
      filterBy := v => true;
      events := map[];
      properties := map[];
      currentValues := map[];
    }

    /** Creates the tables once, defining the declared events and then the
        declared properties; a failing definition stops it, and the tables
        stay as far as they got. */
    method Initialize() returns (r: Outcome)
      requires Valid()
      modifies this
      ensures Valid() && initialized && filterBy == old(filterBy)
      ensures old(initialized) ==> r == Pass && State() == old(State())
      ensures !old(initialized) ==>
        match Declared(filterBy, declaredEvents, declaredProperties)
        case Ok(t) => r == Pass && State() == t
        case Err(e) => r == Fail(e) && State() == DeclaredReached(filterBy, declaredEvents, declaredProperties)
    {
      if initialized {
        return Pass;
      }
      initialized := true;
      var i := 0;
      while i < |declaredEvents|
        invariant 0 <= i <= |declaredEvents|
        invariant Valid() && initialized && filterBy == old(filterBy)
        invariant DeclareEvents(EmptyTables(), filterBy, declaredEvents) ==
          DeclareEvents(State(), filterBy, declaredEvents[i..])
        invariant EventsReached(EmptyTables(), filterBy, declaredEvents) ==
          EventsReached(State(), filterBy, declaredEvents[i..])
      {
        assert declaredEvents[i..][0] == declaredEvents[i] && declaredEvents[i..][1..] == declaredEvents[i + 1..];
        r := DefineEvent(declaredEvents[i]);
        if r.Fail? {
          return;
        }
        i := i + 1;
      }
      assert declaredEvents[i..] == [];
      var j := 0;
      while j < |declaredProperties|
        invariant 0 <= j <= |declaredProperties|
        invariant Valid() && initialized && filterBy == old(filterBy)
        invariant Declared(filterBy, declaredEvents, declaredProperties) ==
          DeclareProperties(State(), declaredProperties[j..])
        invariant DeclaredReached(filterBy, declaredEvents, declaredProperties) ==
          PropertiesReached(State(), declaredProperties[j..])
      {
        assert declaredProperties[j..][0] == declaredProperties[j];
        assert declaredProperties[j..][1..] == declaredProperties[j + 1..];
        r := DefineProperty(declaredProperties[j].0, declaredProperties[j].1);
        if r.Fail? {
          return;
        }
        j := j + 1;
      }
      assert declaredProperties[j..] == [];
      r := Pass;
    }

    /** `setValueTrackerOptions({filterBy})`: the filter of events made from
        now on, then initialization. */
    method SetValueTrackerOptions(filter: Value -> bool) returns (r: Outcome)
      requires Valid()
      modifies this
      ensures Valid() && initialized && filterBy == filter
      ensures old(initialized) ==> r == Pass && State() == old(State())
      ensures !old(initialized) ==>
        match Declared(filter, declaredEvents, declaredProperties)
        case Ok(t) => r == Pass && State() == t
        case Err(e) => r == Fail(e) && State() == DeclaredReached(filter, declaredEvents, declaredProperties)
    {
      filterBy := filter;
      r := Initialize();
    }

    /** `newEvent(name)` on an initialized tracker. */
    method DefineEvent(name: string) returns (r: Outcome)
      requires Valid() && initialized
      modifies this
      ensures Valid() && initialized && filterBy == old(filterBy)
      ensures match AddEvent(old(State()), name, filterBy)
        case Ok(t) => r == Pass && State() == t
        case Err(e) => r == Fail(e) && State() == old(State())
    {
      var a := AddEvent(State(), name, filterBy);
      if a.Err? {
        return Fail(a.error);
      }
      AddEventValid(State(), name, filterBy);
      events := a.value.events;
      r := Pass;
    }

    /** `newEvent(name)`: initialization, then the event. */
    method NewEvent(name: string) returns (r: Outcome)
      requires Valid()
      modifies this
      ensures Valid() && initialized && filterBy == old(filterBy)
      ensures match Begun(old(initialized), old(State()), filterBy, declaredEvents, declaredProperties)
        case Err(e) => r == Fail(e) && State() == DeclaredReached(filterBy, declaredEvents, declaredProperties)
        case Ok(t0) =>
          match AddEvent(t0, name, filterBy)
          case Ok(t) => r == Pass && State() == t
          case Err(e) => r == Fail(e) && State() == t0
    {
      r := Initialize();
      if r.Fail? {
        return;
      }
      r := DefineEvent(name);
    }

    /** `newProperty(name, options)` on an initialized tracker. */
    method DefineProperty(name: string, o: PropertyOptions) returns (r: Outcome)
      requires Valid() && initialized
      modifies this
      ensures Valid() && initialized && filterBy == old(filterBy)
      ensures match AddProperty(old(State()), name, o)
        case Ok(t) => r == Pass && State() == t
        case Err(e) => r == Fail(e) && State() == old(State())
    {
      var a := AddProperty(State(), name, o);
      if a.Err? {
        return Fail(a.error);
      }
      AddPropertyValid(State(), name, o);
      events := a.value.events;
      properties := a.value.properties;
      currentValues := a.value.currentValues;
      r := Pass;
    }

    /** `newProperty(name, options)`: initialization, then the property. */
    method NewProperty(name: string, o: PropertyOptions) returns (r: Outcome)
      requires Valid()
      modifies this
      ensures Valid() && initialized && filterBy == old(filterBy)
      ensures match Begun(old(initialized), old(State()), filterBy, declaredEvents, declaredProperties)
        case Err(e) => r == Fail(e) && State() == DeclaredReached(filterBy, declaredEvents, declaredProperties)
        case Ok(t0) =>
          match AddProperty(t0, name, o)
          case Ok(t) => r == Pass && State() == t
          case Err(e) => r == Fail(e) && State() == t0
    {
      r := Initialize();
      if r.Fail? {
        return;
      }
      r := DefineProperty(name, o);
    }

    /** `p(name)`. */
    method P(name: string) returns (r: Result<PropertyView>)
      requires Valid()
      modifies this
      ensures Valid() && initialized && filterBy == old(filterBy)
      ensures match Begun(old(initialized), old(State()), filterBy, declaredEvents, declaredProperties)
        case Err(e) => r == Err(e) && State() == DeclaredReached(filterBy, declaredEvents, declaredProperties)
        case Ok(t) => State() == t && r == ResolveProperty(t, name)
    {
      var init := Initialize();
      if init.Fail? {
        return Err(init.error);
      }
      r := ResolveProperty(State(), name);
    }

    /** `p(undefined, deps, passiveDeps, transformer)`. */
    method PDerived(active: seq<string>, passive: seq<string>, combiner: seq<Value> -> Value)
      returns (r: Result<PropertyView>)
      requires Valid()
      modifies this
      ensures Valid() && initialized && filterBy == old(filterBy)
      ensures match Begun(old(initialized), old(State()), filterBy, declaredEvents, declaredProperties)
        case Err(e) => r == Err(e) && State() == DeclaredReached(filterBy, declaredEvents, declaredProperties)
        case Ok(t) => State() == t && r == ResolveDerived(t, active, passive, combiner)
    {
      var init := Initialize();
      if init.Fail? {
        return Err(init.error);
      }
      r := ResolveDerived(State(), active, passive, combiner);
    }

    /** `pObj(activeDeps, passiveDeps, transformer)`. */
    method PObj(active: seq<string>, passive: seq<string>, transformer: Value -> Value)
      returns (r: Result<PropertyView>)
      requires Valid()
      modifies this
      ensures Valid() && initialized && filterBy == old(filterBy)
      ensures match Begun(old(initialized), old(State()), filterBy, declaredEvents, declaredProperties)
        case Err(e) => r == Err(e) && State() == DeclaredReached(filterBy, declaredEvents, declaredProperties)
        case Ok(t) => State() == t && r == ResolveObject(t, active, passive, transformer)
    {
      var init := Initialize();
      if init.Fail? {
        return Err(init.error);
      }
      r := ResolveObject(State(), active, passive, transformer);
    }

    /** `e(name)`. */
    method E(name: string) returns (r: Result<EventView>)
      requires Valid()
      modifies this
      ensures Valid() && initialized && filterBy == old(filterBy)
      ensures match Begun(old(initialized), old(State()), filterBy, declaredEvents, declaredProperties)
        case Err(e) => r == Err(e) && State() == DeclaredReached(filterBy, declaredEvents, declaredProperties)
        case Ok(t) => State() == t && r == ResolveEvent(t, name)
    {
      var init := Initialize();
      if init.Fail? {
        return Err(init.error);
      }
      r := ResolveEvent(State(), name);
    }

    /** `hasProperty(name)`: does not initialize; agrees with `p` on plain
        names. */
    function HasProperty(name: string): (b: bool)
      reads this
      ensures !initialized ==> !b
      ensures b && name != "" && PathName.SplitPath(name).None? ==>
        ResolveProperty(State(), name) == Ok(Direct(name))
      ensures initialized && name != "" && ResolveProperty(State(), name).Ok? && PathName.SplitPath(name).None? ==> b
    {
      initialized && name in properties
    }

    /** The getter of a decorated property: its current value, which is the
        last value the property delivered; it fails before initialization,
        when the table of current values does not exist yet. */
    function Get(name: string): (r: Result<Value>)
      requires Valid()
      reads this
      ensures r.Ok? <==> initialized
      ensures (r.Ok? && name in properties && properties[name].opts.allowSynchronousAccess
               && properties[name].last.Some? && properties[name].last.value != Sentinel) ==>
        r.value == properties[name].last.value
      ensures r.Ok? && name !in properties ==> r.value == Undefined
    {
      assert name in properties ==> CacheAgrees(State(), name);
      if !initialized then Err(NotInitialized) else Ok(CurrentValue(State(), name))
    }

    /** `p(name).next(v)` (`h == Public`) or `pSubject(name).next(v)`
        (`h == Owner`), on a stream obtained from the tracker: the value
        enters the property `WriteTarget` names, and the result is what that
        property delivers. */
    method Next(h: Handle, name: string, v: Value) returns (r: Result<seq<Value>>)
      requires Valid() && initialized
      modifies this
      ensures Valid() && initialized && filterBy == old(filterBy)
      ensures WriteTarget(old(State()), h, name).Err? ==>
        r == Err(WriteTarget(old(State()), h, name).error) && State() == old(State())
      ensures WriteTarget(old(State()), h, name).Ok? ==>
        var target := WriteTarget(old(State()), h, name).value;
        target in old(properties)
        && State() == Push(old(State()), target, v).tables && r == Ok(Push(old(State()), target, v).out)
    {
      var target := WriteTarget(State(), h, name);
      if target.Err? {
        return Err(target.error);
      }
      r := Deliver(target.value, v);
    }

    /** The setter of a decorated property: `this.p(key).next(value)`. */
    method Set(name: string, v: Value) returns (r: Result<seq<Value>>)
      requires Valid()
      modifies this
      ensures Valid() && initialized && filterBy == old(filterBy)
      ensures match Begun(old(initialized), old(State()), filterBy, declaredEvents, declaredProperties)
        case Err(e) => r == Err(e) && State() == DeclaredReached(filterBy, declaredEvents, declaredProperties)
        case Ok(t) =>
          && (WriteTarget(t, Public, name).Ok? ==>
                var target := WriteTarget(t, Public, name).value;
                State() == Push(t, target, v).tables && r == Ok(Push(t, target, v).out))
          && (WriteTarget(t, Public, name).Err? ==>
                State() == t && r == Err(WriteTarget(t, Public, name).error))
    {
      var init := Initialize();
      if init.Fail? {
        return Err(init.error);
      }
      r := Next(Public, name, v);
    }

    /** `invalidateCache()` on the stream of `p(name)` or `pSubject(name)`:
        the invalidation marker goes into the property's stream. */
    method InvalidateCache(h: Handle, name: string) returns (r: Outcome)
      requires Valid() && initialized
      modifies this
      ensures Valid() && initialized && filterBy == old(filterBy)
      ensures r == InvalidateAccess(old(State()), h, name)
      ensures r.Fail? ==> State() == old(State())
      ensures r.Pass? ==> name in old(properties) && State() == Push(old(State()), name, Sentinel).tables
    {
      r := InvalidateAccess(State(), h, name);
      if r.Pass? {
        var out := Deliver(name, Sentinel);
      }
    }

    /** The source stream of property `name` delivers `v`. */
    method SourceDelivers(name: string, v: Value) returns (out: seq<Value>)
      requires Valid() && initialized && name in properties && HasSource(properties[name].opts.source)
      modifies this
      ensures Valid() && initialized && filterBy == old(filterBy)
      ensures State() == Push(old(State()), name, v).tables && out == Push(old(State()), name, v).out
    {
      var r := Deliver(name, v);
      out := r.value;
    }

    /** A value enters the stream of property `name`. */
    method Deliver(name: string, v: Value) returns (r: Result<seq<Value>>)
      requires Valid() && initialized && name in properties
      modifies this
      ensures Valid() && initialized && filterBy == old(filterBy)
      ensures State() == Push(old(State()), name, v).tables && r == Ok(Push(old(State()), name, v).out)
    {
      var p := Push(State(), name, v);
      PushValid(State(), name, v);
      properties := p.tables.properties;
      currentValues := p.tables.currentValues;
      r := Ok(p.out);
    }
  }
  // ---------------------------------------------------------------------------
  // The tests' `Vector` class

  /** `@property({initial: 0, allowCacheInvalidation: true}) x`,
      `@property({initial: 1}) y` and `@property({initial: 2}) z`. */
  function VectorProperties(): seq<(string, PropertyOptions)> {
    [("x", DefaultOptions().(initial := Given(Num(0)), allowCacheInvalidation := true)),
     ("y", DefaultOptions().(initial := Given(Num(1)))),
     ("z", DefaultOptions().(initial := Given(Num(2))))]
  }

  /** Initializing a `Vector` defines its three properties, each delivering
      its initial value and reading as it. */
  lemma VectorDeclared(filter: Value -> bool)
    ensures Declared(filter, [], VectorProperties()).Ok?
    ensures var t := Declared(filter, [], VectorProperties()).value;
      && t.properties.Keys == {"x", "y", "z"}
      && t.properties["x"].opts == VectorProperties()[0].1
      && t.properties["y"].opts == VectorProperties()[1].1
      && t.properties["x"].last == Some(Num(0)) && CurrentValue(t, "x") == Num(0)
      && t.properties["y"].last == Some(Num(1)) && CurrentValue(t, "y") == Num(1)
      && t.properties["z"].last == Some(Num(2)) && CurrentValue(t, "z") == Num(2)
  {
    var d := VectorProperties();
    assert d[1..][1..][1..] == [];
    var t0 := EmptyTables();
    var t1 := AddProperty(t0, "x", d[0].1).value;
    var t2 := AddProperty(t1, "y", d[1].1).value;
    var t3 := AddProperty(t2, "z", d[2].1).value;
    assert DeclareProperties(t0, d) == Ok(t3);
  }

  /** The public stream of `x` can be pushed into and invalidated; a push
      delivers the value unless it equals the last one, and the marker
      clears the last value. */
  lemma VectorXPush(t: Tables, v: Value)
    requires "x" in t.properties && t.properties["x"].opts == VectorProperties()[0].1
    ensures WriteTarget(t, Public, "x") == Ok("x") && InvalidateAccess(t, Public, "x") == Pass
    ensures var p := Push(t, "x", v);
      && p.tables.properties["x"].opts == VectorProperties()[0].1
      && (v == Sentinel ==> p.tables.properties["x"].last == None)
      && (v != Sentinel ==>
            p.tables.properties["x"].last == Some(v)
            && p.out == (if t.properties["x"].last == Some(v) then [] else [v]))
  {
    assert PathName.SplitPath("x").None?;
    assert ResolveProperty(t, "x") == Ok(Direct("x"));
  }

  /** Setting `y` (holding 1) to 5 delivers 5, which `y` then reads as. */
  lemma VectorYSet(t: Tables)
    requires "y" in t.properties && t.properties["y"].opts == VectorProperties()[1].1
    requires t.properties["y"].last == Some(Num(1))
    ensures WriteTarget(t, Public, "y") == Ok("y")
    ensures Push(t, "y", Num(5)).out == [Num(5)] && CurrentValue(Push(t, "y", Num(5)).tables, "y") == Num(5)
  {
    assert PathName.SplitPath("y").None?;
    assert ResolveProperty(t, "y") == Ok(Direct("y"));
  }

  /** The tests' `Passenger`, whose `@property({}) carriage` is settable:
      a value pushed into `p('carriage.x')` or `e('carriage.x')` reaches
      `carriage` itself; the loose path `carriage?.x` does the same. */
  lemma CarriagePathWrites(t: Tables, v: Value)
    requires "carriage" in t.properties && t.properties["carriage"].opts == DefaultOptions()
    ensures WriteTarget(t, Public, "carriage.x") == Ok("carriage")
    ensures WriteTarget(t, Public, "carriage?.x") == Ok("carriage")
    ensures Emit(t, "carriage.x", v) == Ok(Push(t, "carriage", v))
  {
    PathName.SplitExamples();
  }

  /** A piece of `InvalidationExample`: `obj.p('x').next(1)` twice on a
      `Vector`; the first push delivers 1 unless `x` already holds 1, the
      second delivers nothing. */
  method PushOneTwice(obj: ValueTracker) returns (log: seq<Value>)
    requires obj.Valid() && obj.initialized
    requires "x" in obj.properties && obj.properties["x"].opts == VectorProperties()[0].1
    modifies obj
    ensures obj.Valid() && obj.initialized
    ensures "x" in obj.properties && obj.properties["x"].opts == VectorProperties()[0].1
    ensures obj.properties["x"].last == Some(Num(1))
    ensures log == if old(obj.properties["x"].last) == Some(Num(1)) then [] else [Num(1)]
  {
    VectorXPush(obj.State(), Num(1));
    var out := obj.Next(Public, "x", Num(1));
    log := out.value;
    VectorXPush(obj.State(), Num(1));
    out := obj.Next(Public, "x", Num(1));
    assert out == Ok([]);
  }

  /** A piece of `InvalidationExample`: a new `Vector`, `p('x')` and the
      value it replays first. */
  method RecordX() returns (obj: ValueTracker, first: Value)
    ensures fresh(obj) && obj.Valid() && obj.initialized
    ensures "x" in obj.properties && obj.properties["x"].opts == VectorProperties()[0].1
    ensures obj.properties["x"].last == Some(Num(0)) && first == Num(0)
  {
    obj := new ValueTracker([], VectorProperties());
    VectorDeclared(obj.filterBy);
    ghost var t0 := Declared(obj.filterBy, [], VectorProperties()).value;
    var view := obj.P("x");
    assert obj.State() == t0;
    var x := obj.Get("x");
    first := x.value;
  }

  /** The cache-invalidation test: recording `p('x')` gives 0; pushing 1
      twice delivers it once; after `invalidateCache()` pushing 1 twice
      delivers it once more. */
  method InvalidationExample() returns (log: seq<Value>)
    ensures log == [Num(0), Num(1), Num(1)]
  {
    var obj, first := RecordX();
    var out := PushOneTwice(obj);
    log := [first] + out;
    VectorXPush(obj.State(), Sentinel);
    var invalidated := obj.InvalidateCache(Public, "x");
    out := PushOneTwice(obj);
    log := log + out;
  }

  /** `obj.y = 5` through the decorator's setter, then `obj.y` reads 5;
      `obj.y` before any operation fails, the tables not existing yet. */
  method SetterExample() returns (before: Result<Value>, after: Result<Value>)
    ensures before == Err(NotInitialized) && after == Ok(Num(5))
  {
    var obj := new ValueTracker([], VectorProperties());
    before := obj.Get("y");
    VectorDeclared(obj.filterBy);
    ghost var t := Declared(obj.filterBy, [], VectorProperties()).value;
    VectorYSet(t);
    var out := obj.Set("y", Num(5));
    assert obj.State() == Push(t, "y", Num(5)).tables;
    after := obj.Get("y");
  }
}

=== FILE: tracker_state.dfy ===
/**
  The tables a value tracker keeps (its events, its properties and the
  current values of the synchronously readable ones), the options of
  `newProperty`, and how each operation of the tracker changes the tables,
  as functions of the old tables.
 */
module TrackerState {
  import opened Values
  import opened Pipeline
  import PathName
  import Combinator

  /** The `source` option: none (`null`), a property name or dotted path,
      or `[deps, passiveDeps, transformer]` for a derived property. */
  datatype Source =
    | NoSource
    | Named(path: string)
    | Derived(active: seq<string>, passive: seq<string>, combiner: seq<Value> -> Value)

  /** `!!source` */
  predicate HasSource(s: Source) {
    match s
    case NoSource => false
    case Named(path) => path != ""
    case Derived(_, _, _) => true
  }

  /** The `initial` option: absent (`undefined`), a value, or a function the
      tracker calls for the value. */
  datatype Initial = NoInitial | Given(v: Value) | Producer(make: () -> Value)

  /** `!!initial` */
  predicate InitialTruthy(i: Initial) {
    match i
    case NoInitial => false
    case Given(v) => Truthy(v)
    case Producer(_) => true
  }

  function InitialValue(i: Initial): Value {
    match i
    case NoInitial => Undefined
    case Given(v) => v
    case Producer(make) => make()
  }

  /** The options of `newProperty`; `readonly` is `None` when left to its
      default. */
  datatype PropertyOptions = PropertyOptions(
    source: Source,
    readonly: Option<bool>,
    allowSynchronousAccess: bool,
    deriveEventStream: bool,
    allowCacheInvalidation: bool,
    isEqual: (Value, Value) -> bool,
    isValid: Validator,
    transform: Value -> Value,
    initial: Initial)

  function DefaultOptions(): PropertyOptions {
    PropertyOptions(NoSource, None, true, true, false,
      (a, b) => a == b, Predicate(v => true), v => v, NoInitial)
  }

  /** `readonly` defaults to `!!source`. */
  function Readonly(o: PropertyOptions): bool {
    if o.readonly.Some? then o.readonly.value else HasSource(o.source)
  }

  function Refinements(o: PropertyOptions): Refinement {
    Refinement(o.isValid, o.transform, o.isEqual, o.allowCacheInvalidation)
  }

  /** An event made by `newEvent`, with the `filterBy` of that moment, or the
      event derived from the property of the same name. */
  datatype EventEntry = Standalone(filter: Value -> bool) | FromProperty

  /** A property: its options, the value its subject holds (for a property
      without a source) and the last value that passed the refinements for
      a subscription made when it was defined. */
  datatype PropertyEntry = PropertyEntry(opts: PropertyOptions, current: Value, last: Option<Value>)

  datatype Tables = Tables(
    events: map<string, EventEntry>,
    properties: map<string, PropertyEntry>,
    currentValues: map<string, Value>)

  function EmptyTables(): Tables {
    Tables(map[], map[], map[])
  }

  /** The synchronously read value agrees with the last delivered one. */
  predicate CacheAgrees(t: Tables, name: string)
    requires name in t.properties
  {
    var e := t.properties[name];
    e.opts.allowSynchronousAccess && e.last.Some? && e.last.value != Sentinel ==>
      name in t.currentValues && t.currentValues[name] == e.last.value
  }

  /** What the tables always satisfy: a property's derived event is in the
      event table under its name, a standalone event never shares its name
      with a property, only synchronously readable properties have a
      current value, and that value is the last one delivered. */
  predicate TablesValid(t: Tables) {
    && (forall n :: n in t.events && t.events[n].FromProperty? ==>
          n in t.properties && t.properties[n].opts.deriveEventStream)
    && (forall n :: n in t.properties && t.properties[n].opts.deriveEventStream ==>
          n in t.events && t.events[n].FromProperty?)
    && (forall n :: n in t.events && t.events[n].Standalone? ==> n !in t.properties)
    && (forall n :: n in t.currentValues ==>
          n in t.properties && t.properties[n].opts.allowSynchronousAccess)
    && (forall n :: n in t.properties ==> CacheAgrees(t, n))
  }

  lemma EmptyTablesValid()
    ensures TablesValid(EmptyTables())
  {
  }

  // ---------------------------------------------------------------------------
  // Looking streams up: `p`, `e`, `hasProperty`

  /** What `p` returns: a property's own stream, the switching stream of a
      dotted path, the combination of dependencies, or `undefined` (for the
      empty name, which neither form of `p` handles). */
  datatype PropertyView =
    | Nothing
    | Direct(name: string)
    | Chained(split: PathName.PathSplit)
    | Combined(active: seq<PropertyView>, passive: seq<PropertyView>, combiner: seq<Value> -> Value)

  /** What `e` returns: `Observable.never()`, a standalone event, the event
      derived from a property, or the switching stream of a dotted path. */
  datatype EventView =
    | Silent
    | StandaloneEvent(name: string)
    | PropertyChanges(name: string)
    | ChainedEvent(split: PathName.PathSplit)

  /** `p(name)`: a dotted path needs its head to be a property (the tail is
      looked up later, on the objects the head delivers); any other non-empty
      name must be a property; the empty name is falsy, so `p` returns
      `undefined` without asserting anything. */
  function ResolveProperty(t: Tables, name: string): (r: Result<PropertyView>)
    ensures r.Ok? && r.value.Direct? ==>
      r.value.name == name && name in t.properties && PathName.SplitPath(name).None?
    ensures r.Ok? && r.value.Chained? ==>
      PathName.Join(r.value.split) == name && PathName.WellFormed(r.value.split)
      && r.value.split.head in t.properties
    ensures r == Ok(Nothing) <==> name == ""
    ensures r.Ok? ==> !r.value.Combined?
    ensures r.Err? ==> r.error.UnknownProperty? && r.error.name !in t.properties && r.error.name != ""
    ensures name != "" && PathName.SplitPath(name).None? ==>
      r == if name in t.properties then Ok(Direct(name)) else Err(UnknownProperty(name))
  {
    PathName.SplitSound(name);
    match PathName.SplitPath(name)
    case Some(split) =>
      if split.head in t.properties then Ok(Chained(split)) else Err(UnknownProperty(split.head))
    case None =>
      if name == "" then Ok(Nothing)
      else if name in t.properties then Ok(Direct(name)) else Err(UnknownProperty(name))
  }

  /** The dependencies of a derived property, looked up in order; the first
      one that is not found fails the lookup. */
  function ResolveAll(t: Tables, names: seq<string>): (r: Result<seq<PropertyView>>)
    ensures r.Ok? <==> forall i :: 0 <= i < |names| ==> ResolveProperty(t, names[i]).Ok?
    ensures r.Ok? ==> (|r.value| == |names| &&
      forall i :: 0 <= i < |names| ==> r.value[i] == ResolveProperty(t, names[i]).value)
    ensures r.Err? ==> (exists i :: (0 <= i < |names| && ResolveProperty(t, names[i]) == Err(r.error)
      && forall j :: 0 <= j < i ==> ResolveProperty(t, names[j]).Ok?))
    decreases |names|
  {
    if names == [] then Ok([])
    else
      match ResolveProperty(t, names[0])
      case Err(e) => Err(e)
      case Ok(v) =>
        match ResolveAll(t, names[1..])
        case Err(e) =>
          assert forall i :: 1 <= i < |names| ==> names[1..][i - 1] == names[i];
          Err(e)
        case Ok(vs) =>
          assert forall i :: 1 <= i < |names| ==> names[1..][i - 1] == names[i];
          Ok([v] + vs)
  }

  /** `p(undefined, deps, passiveDeps, transformer)`: the active
      dependencies are looked up before the passive ones. */
  function ResolveDerived(t: Tables, active: seq<string>, passive: seq<string>,
                          combiner: seq<Value> -> Value): (r: Result<PropertyView>)
    ensures r.Ok? <==> ResolveAll(t, active).Ok? && ResolveAll(t, passive).Ok?
    ensures r.Ok? ==> r.value == Combined(ResolveAll(t, active).value, ResolveAll(t, passive).value, combiner)
    ensures r.Err? && ResolveAll(t, active).Err? ==> r.error == ResolveAll(t, active).error
  {
    match ResolveAll(t, active)
    case Err(e) => Err(e)
    case Ok(av) =>
      match ResolveAll(t, passive)
      case Err(e) => Err(e)
      case Ok(pv) => Ok(Combined(av, pv, combiner))
  }

  /** `pObj(activeDeps, passiveDeps, transformer)`: a derived property whose
      transformer receives one object keyed by the dependency names. */
  function ResolveObject(t: Tables, active: seq<string>, passive: seq<string>,
                         transformer: Value -> Value): (r: Result<PropertyView>)
    ensures r.Ok? <==> ResolveDerived(t, active, passive, Combinator.PObjCombiner(active, passive, transformer)).Ok?
    ensures r.Ok? ==> r.value.Combined? && r.value.combiner == Combinator.PObjCombiner(active, passive, transformer)
  {
    ResolveDerived(t, active, passive, Combinator.PObjCombiner(active, passive, transformer))
  }

  /** `e(name)`: a dotted path needs its head to be a property; a plain name
      that is not an event gives a stream that never emits. */
  function ResolveEvent(t: Tables, name: string): (r: Result<EventView>)
    ensures r.Err? ==> PathName.SplitPath(name).Some? && r.error == UnknownProperty(PathName.SplitPath(name).value.head)
    ensures r.Ok? && r.value.Silent? ==> name !in t.events || PathName.SplitPath(name).Some?
    ensures PathName.SplitPath(name).None? && name in t.events ==>
      r == Ok(if t.events[name].Standalone? then StandaloneEvent(name) else PropertyChanges(name))
    ensures PathName.SplitPath(name).Some? ==> (r.Ok? <==> PathName.SplitPath(name).value.head in t.properties)
  {
    match PathName.SplitPath(name)
    case Some(split) =>
      if split.head in t.properties then Ok(ChainedEvent(split)) else Err(UnknownProperty(split.head))
    case None =>
      if name !in t.events then Ok(Silent)
      else if t.events[name].Standalone? then Ok(StandaloneEvent(name))
      else Ok(PropertyChanges(name))
  }

  // ---------------------------------------------------------------------------
  // Defining events and properties

  /** The body of `newEvent` after initialization. */
  function AddEvent(t: Tables, name: string, filter: Value -> bool): (r: Result<Tables>)
    ensures r.Ok? <==> name !in t.events && name !in t.properties
    ensures r.Err? ==> r.error == (if name in t.events then DuplicateEvent(name) else DuplicateProperty(name))
  {
    if name in t.events then Err(DuplicateEvent(name))
    else if name in t.properties then Err(DuplicateProperty(name))
    else Ok(t.(events := t.events[name := Standalone(filter)]))
  }

  /** The source of a property must be found when the property is defined. */
  function ResolveSource(t: Tables, s: Source): Outcome {
    match s
    case NoSource => Pass
    case Named(path) =>
      if path == "" then Pass
      else (match ResolveProperty(t, path) case Err(e) => Fail(e) case Ok(_) => Pass)
    case Derived(active, passive, combiner) =>
      match ResolveDerived(t, active, passive, combiner) case Err(e) => Fail(e) case Ok(_) => Pass
  }

  /** The assertions of `newProperty`, in their order, followed by the
      lookup of the source. */
  function Admit(t: Tables, name: string, o: PropertyOptions): Outcome {
    if name in t.events then Fail(DuplicateEvent(name))
    else if name in t.properties then Fail(DuplicateProperty(name))
    else if HasSource(o.source) && !Readonly(o) then Fail(SourceNotReadonly(name))
    else if HasSource(o.source) && InitialTruthy(o.initial) then Fail(SourceWithInitial(name))
    else if HasSource(o.source) && o.allowCacheInvalidation then Fail(SourceWithInvalidation(name))
    else ResolveSource(t, o.source)
  }

  /** A new property is admitted exactly when its name is free and, if it has
      a source, it is read-only, has no truthy initial value, does not allow
      cache invalidation and its source is found. */
  lemma AdmitPass(t: Tables, name: string, o: PropertyOptions)
    ensures Admit(t, name, o).Pass? <==>
      && name !in t.events && name !in t.properties
      && (HasSource(o.source) ==>
            Readonly(o) && !InitialTruthy(o.initial) && !o.allowCacheInvalidation
            && ResolveSource(t, o.source).Pass?)
  {
  }

  /** The conflict check tests the truthiness of `initial`: a source with a
      falsy initial value such as 0 is admitted, and the value is ignored. */
  lemma FalsyInitialAdmitted(t: Tables, name: string, path: string)
    requires name !in t.events && name !in t.properties
    requires path in t.properties && path != "" && PathName.SplitPath(path).None?
    ensures Admit(t, name, DefaultOptions().(source := Named(path), initial := Given(Num(0)))).Pass?
    ensures Admit(t, name, DefaultOptions().(source := Named(path), initial := Given(Num(1)))) ==
      Fail(SourceWithInitial(name))
  {
  }

  /** What a property delivers when it is defined: a property without a
      source is a subject holding its initial value, which it replays
      through the refinements at once; a property with a source waits for
      the source. */
  function Created(o: PropertyOptions): (r: (PropertyEntry, seq<Value>))
    ensures r.0.opts == o && |r.1| <= 1
    ensures r.1 != [] ==> r.0.last == Some(r.1[0])
    ensures HasSource(o.source) ==> r.0.last == None && r.1 == []
    ensures !HasSource(o.source) ==>
      (&& r.0.current == InitialValue(o.initial)
       && r.0.last == Step(Refinements(o), None, InitialValue(o.initial)).last
       && r.1 == Step(Refinements(o), None, InitialValue(o.initial)).out)
    ensures (&& !HasSource(o.source) && Accepts(o.isValid, InitialValue(o.initial))
             && !(o.allowCacheInvalidation && InitialValue(o.initial) == Sentinel)
             && !(o.allowCacheInvalidation && o.transform(InitialValue(o.initial)) == Sentinel))
      ==> r.1 == [o.transform(InitialValue(o.initial))]
  {
    if HasSource(o.source) then (PropertyEntry(o, Undefined, None), [])
    else
      var v := InitialValue(o.initial);
      var d := Step(Refinements(o), None, v);
      (PropertyEntry(o, v, d.last), d.out)
  }

  /** The body of `newProperty` after initialization. */
  function AddProperty(t: Tables, name: string, o: PropertyOptions): (r: Result<Tables>)
    ensures r.Ok? <==> Admit(t, name, o).Pass?
    ensures r.Err? ==> r.error == Admit(t, name, o).error
    ensures r.Ok? ==> (r.value.properties.Keys == t.properties.Keys + {name}
      && r.value.properties[name].opts == o
      && (forall n :: n in t.properties ==> r.value.properties[n] == t.properties[n]))
    ensures r.Ok? ==> r.value.properties[name] == Created(o).0
    ensures r.Ok? ==>
      r.value.events == (if o.deriveEventStream then t.events[name := FromProperty] else t.events)
    ensures r.Ok? ==>
      r.value.currentValues ==
        (if o.allowSynchronousAccess && Created(o).1 != [] then t.currentValues[name := Created(o).1[0]]
         else t.currentValues)
  {
    match Admit(t, name, o)
    case Fail(e) => Err(e)
    case Pass =>
      var (entry, out) := Created(o);
      Ok(Tables(
        if o.deriveEventStream then t.events[name := FromProperty] else t.events,
        t.properties[name := entry],
        if o.allowSynchronousAccess && out != [] then t.currentValues[name := out[0]] else t.currentValues))
  }

  /** A property without a source holds its initial value as soon as it is
      declared: the subject replays it through the refinements, and a
      synchronously readable property then reads it, transformed. */
  lemma DeclaredReadsInitial(t: Tables, name: string, o: PropertyOptions)
    requires AddProperty(t, name, o).Ok? && !HasSource(o.source)
    ensures AddProperty(t, name, o).value.properties[name].current == InitialValue(o.initial)
    ensures (&& o.allowSynchronousAccess && Accepts(o.isValid, InitialValue(o.initial))
             && !(o.allowCacheInvalidation && InitialValue(o.initial) == Sentinel)
             && !(o.allowCacheInvalidation && o.transform(InitialValue(o.initial)) == Sentinel))
      ==> CurrentValue(AddProperty(t, name, o).value, name) == o.transform(InitialValue(o.initial))
    ensures !o.allowSynchronousAccess ==>
      CurrentValue(AddProperty(t, name, o).value, name) == CurrentValue(t, name)
  {
  }

  lemma AddEventValid(t: Tables, name: string, filter: Value -> bool)
    requires TablesValid(t) && AddEvent(t, name, filter).Ok?
    ensures TablesValid(AddEvent(t, name, filter).value)
  {
    var u := AddEvent(t, name, filter).value;
    forall n | n in u.properties ensures CacheAgrees(u, n) {
      assert CacheAgrees(t, n);
    }
  }

  lemma AddPropertyValid(t: Tables, name: string, o: PropertyOptions)
    requires TablesValid(t) && AddProperty(t, name, o).Ok?
    ensures TablesValid(AddProperty(t, name, o).value)
  {
    var u := AddProperty(t, name, o).value;
    assert name !in t.currentValues;
    forall n | n in u.properties ensures CacheAgrees(u, n) {
      if n != name {
        assert CacheAgrees(t, n);
      }
    }
  }

  /** A name is taken once: after an event or a property is defined under
      it, neither can be defined again. */
  lemma NamesTakenOnce(t: Tables, name: string, o: PropertyOptions, o2: PropertyOptions, filter: Value -> bool)
    requires AddProperty(t, name, o).Ok?
    ensures AddProperty(AddProperty(t, name, o).value, name, o2).Err?
    ensures AddEvent(AddProperty(t, name, o).value, name, filter).Err?
    ensures AddEvent(t, name, filter).Ok? ==>
      AddProperty(AddEvent(t, name, filter).value, name, o2) == Err(DuplicateEvent(name))
  {
  }

  // ---------------------------------------------------------------------------
  // Pushing values

  /** How a value is pushed: through the public stream of `p(name)` (the
      setter of a decorated property) or the owner's subject of
      `pSubject(name)`. */
  datatype Handle = Public | Owner

  /** Whether the public stream of a plain property has `next`: it is the
      property's chain of operators lifted on its subject, unless the
      property is read-only (then it is `asObservable()`); a property with a
      source is not counted, its chain being the source's. */
  predicate PubliclySettable(t: Tables, name: string)
    requires name in t.properties
  {
    !HasSource(t.properties[name].opts.source) && !Readonly(t.properties[name].opts)
  }

  /** The property whose subject a value pushed with `next` reaches. Through
      `p(name)`: a publicly settable property itself or, for a dotted path,
      its head, since operators lifted on a subject (the `switchMap` of the
      path included) forward `next` to it; `undefined`, a read-only stream
      and a combination have no `next`. Through `pSubject(name)`: any
      property without a source; an unknown name gives `undefined`. */
  function WriteTarget(t: Tables, h: Handle, name: string): (r: Result<string>)
    ensures r.Ok? ==> r.value in t.properties && !HasSource(t.properties[r.value].opts.source)
  {
    match h
    case Public =>
      (match ResolveProperty(t, name)
       case Err(e) => Err(e)
       case Ok(view) =>
         if view.Direct? && PubliclySettable(t, name) then Ok(name)
         else if view.Chained? && PubliclySettable(t, view.split.head) then Ok(view.split.head)
         else Err(NotSettable(name)))
    case Owner =>
      if name !in t.properties then Err(UnknownProperty(name))
      else if HasSource(t.properties[name].opts.source) then Err(NotSettable(name))
      else Ok(name)
  }

  /** The owner can push into every property without a source; anyone can
      push into one that is also not read-only, through its plain name or
      through any dotted path that starts with it. */
  lemma WriteTargetFound(t: Tables, h: Handle, name: string)
    ensures h == Owner ==>
      (WriteTarget(t, h, name).Ok? <==> name in t.properties && !HasSource(t.properties[name].opts.source))
      && (WriteTarget(t, h, name).Ok? ==> WriteTarget(t, h, name).value == name)
    ensures h == Public && name != "" && PathName.SplitPath(name).None? ==>
      (WriteTarget(t, h, name).Ok? <==> name in t.properties && PubliclySettable(t, name))
      && (WriteTarget(t, h, name).Ok? ==> WriteTarget(t, h, name).value == name)
    ensures h == Public && PathName.SplitPath(name).Some? ==>
      var head := PathName.SplitPath(name).value.head;
      (WriteTarget(t, h, name).Ok? <==> head in t.properties && PubliclySettable(t, head))
      && (WriteTarget(t, h, name).Ok? ==> WriteTarget(t, h, name).value == head)
    ensures WriteTarget(t, Public, "") == Err(NotSettable(""))
  {
  }

  /** `invalidateCache` exists only on the stream of a property that allows
      cache invalidation, and the public stream of a read-only property does
      not carry it. */
  function InvalidateAccess(t: Tables, h: Handle, name: string): Outcome {
    match h
    case Public =>
      (match ResolveProperty(t, name)
       case Err(e) => Fail(e)
       case Ok(view) =>
         if !view.Direct? then Fail(NoInvalidateCache(name))
         else if !t.properties[name].opts.allowCacheInvalidation || Readonly(t.properties[name].opts) then Fail(NoInvalidateCache(name))
         else Pass)
    case Owner =>
      if name !in t.properties then Fail(UnknownProperty(name))
      else if !t.properties[name].opts.allowCacheInvalidation then Fail(NoInvalidateCache(name))
      else Pass
  }

  /** Cache invalidation is only ever possible on a property without a
      source that allows it. */
  lemma InvalidateAccessPass(t: Tables, h: Handle, name: string)
    requires TablesValid(t)
    ensures InvalidateAccess(t, h, name).Pass? ==>
      name in t.properties && t.properties[name].opts.allowCacheInvalidation
  {
  }

  /** The result of a push: the new tables and what the property delivers. */
  datatype Pushed = Pushed(tables: Tables, out: seq<Value>)

  /** A value enters the property's stream (for a property without a source
      it becomes the subject's value) and goes through its refinements; a
      delivered value becomes the current value of a synchronously readable
      property. */
  function Push(t: Tables, name: string, v: Value): (r: Pushed)
    requires name in t.properties
    ensures |r.out| <= 1
    ensures r.tables.events == t.events && r.tables.properties.Keys == t.properties.Keys
    ensures forall n :: n in t.properties && n != name ==> r.tables.properties[n] == t.properties[n]
    ensures r.tables.properties[name].opts == t.properties[name].opts
    ensures r.out == Step(Refinements(t.properties[name].opts), t.properties[name].last, v).out
    ensures r.tables.properties[name].last == Step(Refinements(t.properties[name].opts), t.properties[name].last, v).last
    ensures r.tables.properties[name].current ==
      if HasSource(t.properties[name].opts.source) then t.properties[name].current else v
    ensures r.tables.currentValues ==
      if t.properties[name].opts.allowSynchronousAccess && r.out != [] then t.currentValues[name := r.out[0]]
      else t.currentValues
  {
    var e := t.properties[name];
    var d := Step(Refinements(e.opts), e.last, v);
    var current := if HasSource(e.opts.source) then e.current else v;
    Pushed(
      t.(properties := t.properties[name := PropertyEntry(e.opts, current, d.last)],
         currentValues := if e.opts.allowSynchronousAccess && d.out != [] then t.currentValues[name := d.out[0]] else t.currentValues),
      d.out)
  }

  /** The current value of a decorated property (`this[$$currentValues][key]`). */
  function CurrentValue(t: Tables, name: string): Value {
    if name in t.currentValues then t.currentValues[name] else Undefined
  }

  /** Pushes keep the tables valid, and a delivered value is what the
      property then reads as. */
  lemma PushValid(t: Tables, name: string, v: Value)
    requires TablesValid(t) && name in t.properties
    ensures TablesValid(Push(t, name, v).tables)
    ensures var p := Push(t, name, v);
      p.out != [] && t.properties[name].opts.allowSynchronousAccess ==> CurrentValue(p.tables, name) == p.out[0]
  {
    var u := Push(t, name, v).tables;
    forall n | n in u.properties ensures CacheAgrees(u, n) {
      if n != name {
        assert CacheAgrees(t, n);
      }
    }
  }

  /** Setting a property to the value it just got changes nothing more:
      the second push delivers nothing and leaves the current value. */
  lemma PushSameTwice(t: Tables, name: string, v: Value)
    requires name in t.properties
    requires var rf := Refinements(t.properties[name].opts);
      !(rf.invalidation && v == Sentinel) && rf.isEqual(rf.transform(v), rf.transform(v))
    ensures var p1 := Push(t, name, v);
      var p2 := Push(p1.tables, name, v);
      p2.out == [] && p2.tables.currentValues == p1.tables.currentValues
  {
    PushTwice(Refinements(t.properties[name].opts), t.properties[name].last, v);
  }

  /** `invalidateCache()` followed by a push of the value the property already
      holds delivers it again. */
  lemma InvalidateThenPush(t: Tables, name: string, v: Value)
    requires name in t.properties
    requires var rf := Refinements(t.properties[name].opts);
      rf.invalidation && v != Sentinel && Accepts(rf.isValid, v) && rf.transform(v) != Sentinel
    ensures var p1 := Push(t, name, Sentinel);
      var p2 := Push(p1.tables, name, v);
      p1.out == [] && p2.out == [Refinements(t.properties[name].opts).transform(v)]
  {
  }

  // ---------------------------------------------------------------------------
  // Emitting events

  /** `e(name).next(v)`: a standalone event delivers the value when the
      `filterBy` it was made with accepts it; for a dotted path the value
      reaches the head property, as with `p`; the event derived from a
      property (`asObservable().skip(1)`) and `Observable.never()` have no
      `next`. */
  function Emit(t: Tables, name: string, v: Value): (r: Result<Pushed>)
    ensures PathName.SplitPath(name).None? ==>
      (r.Ok? <==> name in t.events && t.events[name].Standalone?)
    ensures PathName.SplitPath(name).None? && r.Ok? ==>
      r.value == Pushed(t, if t.events[name].filter(v) then [v] else [])
    ensures PathName.SplitPath(name).Some? ==>
      var head := PathName.SplitPath(name).value.head;
      (r.Ok? <==> head in t.properties && PubliclySettable(t, head))
      && (r.Ok? ==> r.value == Push(t, head, v))
  {
    match ResolveEvent(t, name)
    case Err(e) => Err(e)
    case Ok(view) =>
      if view.StandaloneEvent? then Ok(Pushed(t, if t.events[name].filter(v) then [v] else []))
      else if view.ChainedEvent? && PubliclySettable(t, view.split.head) then Ok(Push(t, view.split.head, v))
      else Err(NotSettable(name))
  }
}

=== FILE: values.dfy ===
/**
  The JavaScript values that flow through properties, events and the helper
  functions, together with the result and error types shared by the model.
 */
module Values {

  /** A JavaScript value, as far as this library can tell values apart.
      Numbers are integers plus the two infinities; `Ref(id)` is an object
      that is itself a value tracker (it can be the link of a dotted path);
      `Obj` is any other plain object; `SetOf` is a `Set` with its members in
      insertion order; `Sentinel` is the private symbol a cache-invalidating
      property pushes through its own pipeline. */
  datatype Value =
    | Undefined
    | Null
    | Bool(b: bool)
    | Num(n: int)
    | Infinity(negative: bool)
    | Str(s: string)
    | Ref(id: nat)
    | Arr(items: seq<Value>)
    | Obj(fields: map<string, Value>)
    | SetOf(members: seq<Value>)
    | Sentinel

  /** JavaScript truthiness (`!!v`). */
  predicate Truthy(v: Value) {
    match v
    case Undefined => false
    case Null => false
    case Bool(b) => b
    case Num(n) => n != 0
    case Str(s) => s != ""
    case _ => true
  }

  /** `typeof v === 'number'` */
  predicate IsNumber(v: Value) {
    v.Num? || v.Infinity?
  }

  datatype Option<+T> = None | Some(value: T)

  /** The errors the library raises (all through failed assertions or the
      TypeError of calling a method a stream does not have). */
  datatype Error =
    | DuplicateEvent(name: string)
    | DuplicateProperty(name: string)
    | SourceNotReadonly(name: string)
    | SourceWithInitial(name: string)
    | SourceWithInvalidation(name: string)
    | UnknownProperty(name: string)
    | ChainTarget(head: string)
    | NotSettable(name: string)
    | NoInvalidateCache(name: string)
    | NotAnEventKey(key: string)
    | NotInitialized
    | SymbolToString

  datatype Result<+T> = Ok(value: T) | Err(error: Error)

  datatype Outcome = Pass | Fail(error: Error)

  /** The decimal digits of a natural number. */
  function NatToDecimal(n: nat): (r: string)
    ensures |r| >= 1
    ensures forall i :: 0 <= i < |r| ==> '0' <= r[i] <= '9'
  {
    var d := ['0' + (n % 10) as char];
    if n < 10 then d else NatToDecimal(n / 10) + d
  }

  /** `String(n)` for an integer. */
  function IntToDecimal(n: int): string {
    if n < 0 then "-" + NatToDecimal(-n) else NatToDecimal(n)
  }

  /** Joins texts with a comma, as `Array.prototype.join` does; `None` when
      one of them could not be converted. */
  function JoinComma(parts: seq<Option<string>>): Option<string> {
    if parts == [] then Some("")
    else if parts[0].None? then None
    else if |parts| == 1 then parts[0]
    else
      match JoinComma(parts[1..])
      case None => None
      case Some(rest) => Some(parts[0].value + "," + rest)
  }

  /** The string conversion that `+` applies to a value (`'' + v`); `None`
      where JavaScript throws a TypeError, i.e. for a symbol, also inside an
      array. An array element that is `undefined` or `null` becomes "". */
  function Stringify(v: Value): Option<string>
    decreases v
  {
    match v
    case Undefined => Some("undefined")
    case Null => Some("null")
    case Bool(b) => Some(if b then "true" else "false")
    case Num(n) => Some(IntToDecimal(n))
    case Infinity(neg) => Some(if neg then "-Infinity" else "Infinity")
    case Str(s) => Some(s)
    case Ref(_) => Some("[object Object]")
    case Obj(_) => Some("[object Object]")
    case SetOf(_) => Some("[object Set]")
    case Sentinel => None
    case Arr(items) =>
      JoinComma(seq(|items|, i requires 0 <= i < |items| =>
        if items[i].Undefined? || items[i].Null? then Some("") else Stringify(items[i])))
  }
}
